=== FILE: README.md ===
# fixed-width-parser, modelled in Dafny

This project models the conversion core of the TypeScript library
fixed-width-parser. The library reads lines of fixed-width text into records
and writes records back as fixed-width text. The model covers:

- **`FixedWidthParser`** (`fixed_width_parser.dfy`). It keeps the registry of
  the `string` and `skip` parsers. Construction overlays each segment
  configuration on its parser's defaults and rejects unknown types. `parse`
  rewrites CRLF as LF, splits on LF and maps every line through the
  `parseLine` stub.
- **The segment processors.** The base class's default padding, `trim`, `pad`
  and `validateConfig` are in `segment_processor.dfy`. The class hierarchy
  becomes one closed datatype, `TypeOptions`, whose constructor is the type
  tag. The string, skip, integer, float and boolean processors each have a
  module:
  - The integer model holds the whole of `parseInt` as ECMA-262 section 19.2.5
    defines it for a call without a radix.
  - The float model holds the implied-decimal text built by `parse`, and the
    step-by-step fixed-decimal string that `format` computes and then throws
    away.
- **The string utilities.** These are:
  - `trimString` (a method with the source's two loops);
  - `splice`;
  - `handleFalsyFallback`;
  - `filterCharacters`, a method with the source's loop over the class
    strings. It is proved equal to a one-rule specification of which units
    are removed.

Strings are sequences of UTF-16 code units (`JsString` in `js_core.dfy`).
`js_core.dfy` also holds the JavaScript built-ins the source calls: `slice`,
`substring`, `charAt`, `indexOf`, `padStart`, `padEnd`, `String(...)`,
`toString(radix)` on integers, and truthiness. Numbers are integers plus an
explicit NaN. Throwing an error becomes an error value of a result datatype.

The float `parse` and `splice` are modelled as written; the off-by-one they
share is recorded under "## Findings".

## Model

| member | source | states |
|---|---|---|
| FixedWidth.FindParser | src/FixedWidthParser.ts:81 | no parser is found exactly when no registered parser has the type; a found parser is registered and has that type |
| FixedWidth.RegisteredTypes | src/FixedWidthParser.ts:70 | 'string' finds the string parser, 'skip' the skip parser, and every other type finds none |
| FixedWidth.ApplyDefaults | src/FixedWidthParser.ts:77-94 | construction succeeds exactly when every segment's type is registered; it keeps the list's length and order; each segment keeps the caller's type, name, start, width and padChar, and padChar defaults to ' ' |
| FixedWidth.FirstUnknownAborts | src/FixedWidthParser.ts:80-87 | a failed construction carries the message naming the type and segment name of the first segment whose type is unknown |
| FixedWidth.New | src/FixedWidthParser.ts:73-75 | the parser holds the configuration with its defaults applied, or construction fails with the same error |
| FixedWidth.PadCharDefault | src/FixedWidthParser.ts:44-46 | a segment given no padChar pads with a space |
| FixedWidth.DefaultPadCharIsSpace | src/FixedWidthParser.ts:44-66 | `DefaultPadChar`: the string and the skip parser both default padChar to ' ' |
| FixedWidth.ParserTypesDistinct | src/FixedWidthParser.ts:33-54 | `ParserType`: the string and the skip parser answer to different types, so a type selects at most one of them |
| FixedWidth.NoParserMessageNames | src/FixedWidthParser.ts:84-86 | `NoParserMessage`: the construction error quotes the segment's type and then its name, at fixed positions after the fixed text |
| FixedWidth.NormalizeNewlines | src/FixedWidthParser.ts:109 | rewriting CRLF never lengthens the text and leaves text without CR unchanged |
| FixedWidth.CrLfBecomesLf | src/FixedWidthParser.ts:109 | every CRLF becomes one LF: a CRLF between two texts is replaced by LF and the texts on either side are normalised on their own |
| FixedWidth.NormalizeKeepsLineFeeds | src/FixedWidthParser.ts:109 | rewriting CRLF as LF keeps the number of LFs |
| FixedWidth.SinglePass | src/FixedWidthParser.ts:109 | the rewrite is one left-to-right pass: CR CR LF becomes CR LF |
| FixedWidth.Split | src/FixedWidthParser.ts:109 | splitting yields at least one piece and no piece holds the separator |
| FixedWidth.SplitCount | src/FixedWidthParser.ts:109 | splitting yields one piece more than the text has separators |
| FixedWidth.SplitJoin | src/FixedWidthParser.ts:109 | joining the pieces with the separator gives the text back |
| FixedWidth.JoinSplit | src/FixedWidthParser.ts:109 | splitting undoes joining pieces that hold no separator |
| FixedWidth.LinesRejoin | src/FixedWidthParser.ts:109 | the lines hold no LF, and joined with LF they give the normalised input |
| FixedWidth.Parse | src/FixedWidthParser.ts:100-112 | empty input fails with 'Invalid input! Input is empty!'; any other input gives one record per line, in line order, each the `parseLine` of its line |
| FixedWidth.EmptyInputFails | src/FixedWidthParser.ts:101-103 | `parse('')` fails with 'Invalid input! Input is empty!' |
| FixedWidth.RecordCount | src/FixedWidthParser.ts:109-111 | the record count is the number of LFs plus one, so a lone CR separates nothing and a trailing newline adds a record |
| FixedWidth.AllRecordsEmpty | src/FixedWidthParser.ts:114-116 | with the `parseLine` stub every record is empty, whatever the line holds |
| FixedWidth.ParseLineIgnoresLine | src/FixedWidthParser.ts:114-116 | `ParseLine`: the stub gives any two lines the same record, and that record is empty |
| FixedWidth.ParserParse | src/FixedWidthParser.ts:36-58 | the string parser yields the one-key record {name: input}; the skip parser yields the empty record |
| FixedWidth.ParserFormat | src/FixedWidthParser.ts:40-62 | the string parser writes a string value as it is, a missing one as 'undefined', a number in base 10, null as 'null' and a boolean as 'true' or 'false'; the skip parser writes '' |
| FixedWidth.StringParserRoundTrip | src/FixedWidthParser.ts:36-42 | the string parser's record formats back to the text it parsed |
| SegmentProcessor.TagsDistinct | src/processors/SegmentProcessor.ts:9 | `TypeTag`: no two processor types share a type tag |
| SegmentProcessor.DefaultPadding | src/processors/SegmentProcessor.ts:31-37 | `DEFAULT_PADDING`: the base class's padding trims leading spaces and pads with spaces at the start |
| SegmentProcessor.Trim | src/processors/SegmentProcessor.ts:46-56 | with trim off the input is unchanged; otherwise the maximal run of padding characters goes from the start ('start') or from the end, and what remains does not begin (or end) with one |
| SegmentProcessor.Pad | src/processors/SegmentProcessor.ts:65-71 | the result has length max(width, input length), so nothing is cut; 'start' puts the input behind padding characters and 'end' puts it before them |
| SegmentProcessor.ValidateConfig | src/processors/SegmentProcessor.ts:74-82 | every configuration is accepted |
| SegmentProcessor.TrimPadRoundTrip | src/processors/SegmentProcessor.ts:46-71 | with trim on, trimming a padded value gives the value back when it does not begin ('start') or end ('end') with a padding character |
| StringSegmentProcessor.StringParse | src/processors/StringSegmentProcessor.ts:11-13 | the value is the input, and the configuration plays no part |
| StringSegmentProcessor.StringFormat | src/processors/StringSegmentProcessor.ts:15-17 | a string value is written as it is, a missing value as 'undefined', a number in base 10, null as 'null' and a boolean as 'true' or 'false' |
| StringSegmentProcessor.StringRoundTrip | src/processors/StringSegmentProcessor.ts:11-17 | format after parse, and parse after format, give the string back |
| SkipSegmentProcessor.SkipParse | src/processors/SkipSegmentProcessor.ts:11-13 | every input parses to the empty object |
| SkipSegmentProcessor.SkipFormat | src/processors/SkipSegmentProcessor.ts:15-17 | every record formats to '' |
| SkipSegmentProcessor.SkipPadded | src/processors/SkipSegmentProcessor.ts:15-17 | padded, a skipped segment is exactly `width` copies of its padding character |
| IntegerSegmentProcessor.IntegerParse | src/processors/IntegerSegmentProcessor.ts:14-26 | 'error' throws with the message naming the segment, and only 'error' does; 'ceil' and 'round' hand the text to `parseFloat`; 'floor' and an absent mend give the number `parseInt` reads |
| IntegerSegmentProcessor.IntegerFormat | src/processors/IntegerSegmentProcessor.ts:28-40 | 'error' throws, and only 'error' does; for every value other than a string, 'ceil' and 'round' write in base 10 the number the value converts to, and 'floor' and an absent mend write it in `config.radix` (10 when absent), raising a RangeError outside 2..36; a string value goes to the string-to-number conversion |
| IntegerSegmentProcessor.IntegerMessageNames | src/processors/IntegerSegmentProcessor.ts:21 | `IntegerMessage`: the message of the 'error' branch (the same text at line 35) quotes the segment name after 27 fixed units |
| IntegerSegmentProcessor.RoundedText | src/processors/IntegerSegmentProcessor.ts:31-38 | a string value is handed to the string-to-number conversion with its text, and only a string is |
| IntegerSegmentProcessor.RoundedTextDigits | src/processors/IntegerSegmentProcessor.ts:31-38 | an integer value is written as an optional '-' and at least one digit of the radix |
| IntegerSegmentProcessor.MissingOrNullField | src/processors/IntegerSegmentProcessor.ts:28-38 | a record without the field formats as 'NaN' and a null field as '0', whenever the mend writes text |
| IntegerSegmentProcessor.ErrorAlwaysThrows | src/processors/IntegerSegmentProcessor.ts:14-40 | `mend: 'error'` throws in `parse` and in `format` for every input |
| IntegerSegmentProcessor.ParseIgnoresRadix | src/processors/IntegerSegmentProcessor.ts:24 | on the floor branch `config.radix` does not change what `parse` returns |
| IntegerSegmentProcessor.ParseIntToString | src/processors/IntegerSegmentProcessor.ts:24 | `parseInt` reads back every integer that base-10 `toString` writes, sign included |
| IntegerSegmentProcessor.FloorRoundTrip | src/processors/IntegerSegmentProcessor.ts:22-38 | on the floor branch with radix 10, parsing what `format` wrote for an integer gives that integer |
| IntegerSegmentProcessor.SkipsWhiteSpace | src/processors/IntegerSegmentProcessor.ts:24 | leading white space does not change what `parseInt` reads |
| IntegerSegmentProcessor.ParseIntStopsAtNonDigit | src/processors/IntegerSegmentProcessor.ts:24 | `parseInt(' -42px')` is -42: white space skipped, sign read, digits stop at the first non-digit |
| IntegerSegmentProcessor.ParseIntHex | src/processors/IntegerSegmentProcessor.ts:24 | a '0x' prefix reads hexadecimal: `parseInt('0x1F')` is 31 |
| IntegerSegmentProcessor.ParseIntNoDigits | src/processors/IntegerSegmentProcessor.ts:24 | text whose first unit is not white space, not a sign and not a decimal digit gives NaN |
| IntegerSegmentProcessor.ParseIntLetters | src/processors/IntegerSegmentProcessor.ts:24 | `parseInt('abc')` is NaN |
| IntegerSegmentProcessor.RadixDigitsAreDigits | src/processors/IntegerSegmentProcessor.ts:38 | `toString(radix)` writes only digits of its radix |
| IntegerSegmentProcessor.DefaultsRound | src/processors/IntegerSegmentProcessor.ts:42-50 | `IntegerDefaults` and `INTEGER_PADDING`: under the defaults `parse` rounds `parseFloat` of the text, `format` writes base 10, and trimming strips leading '0's |
| FloatSegmentProcessor.FloatParse | src/processors/FloatSegmentProcessor.ts:13-20 | text with a '.' goes to `Number` as it is; other text goes as the zero-padded field with the implied point, with `decimalCount` defaulting to 2 |
| FloatSegmentProcessor.ImpliedDecimal | src/processors/FloatSegmentProcessor.ts:19-20 | the result is the padded field with one '.' at the resolved position; deleting it gives the padded field back |
| FloatSegmentProcessor.ZeroPadded | src/processors/FloatSegmentProcessor.ts:19 | padding puts the input behind '0's, reaches max(width, length), and leaves input of at least `width` untouched |
| FloatSegmentProcessor.OneDecimalPoint | src/processors/FloatSegmentProcessor.ts:19-20 | text without a '.' gets exactly one '.' |
| FloatSegmentProcessor.FractionDigits | src/processors/FloatSegmentProcessor.ts:19-20 | when `length - 1 - decimalCount` is a position in the padded text, '.' sits there with `decimalCount + 1` units after it |
| FloatSegmentProcessor.DecimalCountIsLength | src/processors/FloatSegmentProcessor.ts:20 | a `decimalCount` equal to the padded length puts '.' before the last unit |
| FloatSegmentProcessor.ImpliedDecimalExample | src/processors/FloatSegmentProcessor.ts:19-20 | '314159', width 10, `decimalCount` 3 gives '000031.4159' |
| FloatSegmentProcessor.DefaultDecimalCount | src/processors/FloatSegmentProcessor.ts:14 | an absent `decimalCount` parses like 2 |
| FloatSegmentProcessor.DecimalIndex | src/processors/FloatSegmentProcessor.ts:29 | the index of the first '.', or the length of text without one |
| FloatSegmentProcessor.FormatDecimals | src/processors/FloatSegmentProcessor.ts:29-41 | the slice, count and pad steps compute `FixedDecimals`, the fixed-decimal text |
| FloatSegmentProcessor.FormatSteps | src/processors/FloatSegmentProcessor.ts:31-41 | `FixedDecimals` is the slice with '0's appended up to `decimalCount` |
| FloatSegmentProcessor.KeptDecimals | src/processors/FloatSegmentProcessor.ts:31-36 | with `decimalCount` ≥ 0 the slice keeps at most `decimalCount` fraction digits, and the count step finds that many |
| FloatSegmentProcessor.DecimalsAfterPoint | src/processors/FloatSegmentProcessor.ts:33-36 | the count is the number of units after the first '.', or 0 without one |
| FloatSegmentProcessor.FixedDecimalsWhole | src/processors/FloatSegmentProcessor.ts:29-41 | text without '.' gets `decimalCount` zeros and no point; with `decimalCount` absent it is unchanged |
| FloatSegmentProcessor.FixedDecimalsFraction | src/processors/FloatSegmentProcessor.ts:29-41 | text with '.' keeps at most `decimalCount` fraction digits, then is zero-padded to `decimalCount` when `decimalCount` is given |
| FloatSegmentProcessor.FloatFormat | src/processors/FloatSegmentProcessor.ts:25-44 | an undefined or null value throws a TypeError; every other value returns undefined |
| BooleanSegmentProcessor.BooleanParse | src/processors/BooleanSegmentProcessor.ts:13-23 | true exactly for `trueValue`; false exactly for a `falseValue` that is not `trueValue`; undefined for anything else |
| BooleanSegmentProcessor.BooleanFormat | src/processors/BooleanSegmentProcessor.ts:25-27 | a truthy value writes `trueValue` and any other value `falseValue` |
| BooleanSegmentProcessor.BooleanRoundTrip | src/processors/BooleanSegmentProcessor.ts:13-27 | with distinct strings, parse after format gives the boolean back |
| BooleanSegmentProcessor.BooleanSameValues | src/processors/BooleanSegmentProcessor.ts:14-16 | with equal strings a match parses to true, because `trueValue` is tested first |
| FalsyFallback.HandleFalsyFallback | src/handleFalsyFallback.ts:7-20 | the result is never NaN; a truthy value is unchanged; a falsy value gives undefined or null as configured; 'passthrough' turns NaN into 0 and keeps everything else |
| FalsyFallback.FalsyScalars | src/handleFalsyFallback.ts:7 | the falsy inputs are exactly '', 0, NaN and false |
| FalsyFallback.NaNTakesFallback | src/handleFalsyFallback.ts:7-18 | NaN under 'undefined' or 'null' gets the fallback, not 0 |
| TrimString.TrimString | src/trimString.ts:1-17 | a one-unit `charToRemove` strips its maximal leading ('start') or trailing run; any other `charToRemove` leaves the input unchanged |
| TrimString.TrimStartLoop | src/trimString.ts:7-9 | the loop removes a prefix made only of `charToRemove` and stops at a unit that differs from it |
| TrimString.TrimEndLoop | src/trimString.ts:11-13 | the loop removes a suffix made only of `charToRemove` and stops at a unit that differs from it |
| TrimString.StripLeadingUnique | src/trimString.ts:7-9 | the leading run is unique: a run followed by a rest not starting with the character strips to that rest |
| TrimString.StripTrailingUnique | src/trimString.ts:11-13 | the trailing run is unique |
| TrimString.StripIdempotent | src/trimString.ts:6-14 | trimming twice trims nothing more |
| Splice.Splice | src/splice.ts:6 | the result is the target cut at the resolved position with the insert between, and its length is the sum of the two lengths |
| Splice.SpliceInRange | src/splice.ts:6 | a position in 0..length inserts exactly there |
| Splice.SpliceOutOfRange | src/splice.ts:6 | a negative position counts from the end; before the start prepends, past the end appends |
| Splice.SpliceThenDelete | src/splice.ts:6 | deleting the inserted piece at its position gives the target back |
| Splice.SpliceTestAsWritten | test/splice.spec.ts:9-11 | `splice('123567', '4', 2)` is '1243567', not the expected '1234567' |
| Splice.SpliceAfter | src/splice.ts:6 | corrected splice: the piece is inserted after the unit at the position, resolved as `slice` resolves it |
| Splice.SpliceAfterIndex | src/splice.ts:6 | corrected splice: for a position inside the target, the unit there and everything before it come first, then the piece |
| Splice.SpliceAfterTest | test/splice.spec.ts:5-11 | corrected splice: the test's own call `splice('123567', '4', 2)` gives the expected '1234567' |
| FloatSegmentProcessor.ImpliedDecimalAfter | src/processors/FloatSegmentProcessor.ts:19-20 | corrected implied decimal: the zero-padded field plus one '.', so max(width, length) + 1 units |
| FloatSegmentProcessor.ImpliedDecimalAfterDigits | src/processors/FloatSegmentProcessor.ts:19-20 | corrected implied decimal: for `decimalCount` from 0 to the field length, exactly `decimalCount` units follow the '.', and removing it gives the padded field |
| FloatSegmentProcessor.ImpliedDecimalAfterExample | test/parse.spec.ts:261-281 | corrected implied decimal: '314159', width 10, `decimalCount` 3 gives '0000314.159', the 314.159 the test expects |
| FloatSegmentProcessor.ImpliedDecimalAfterWhole | test/parse.spec.ts:328-348 | corrected implied decimal: '9', width 10, `decimalCount` 10 gives '.0000000009', the 0.0000000009 the test expects |
| Splice.SpliceTestIntended | test/splice.spec.ts:5-11 | `splice('123567', '4', 3)` is '1234567' |
| FilterCharacters.FilterCharacters | src/filterCharacters.ts:3-117 | the result is exactly the input without the units the whitelist removes (`Kept`), in their order |
| FilterCharacters.RemoveClasses | src/filterCharacters.ts:61-65 | the loop over the class strings applies the extended, numeric and alpha passes in order, each only when its flag is false |
| FilterCharacters.Passes | src/filterCharacters.ts:46-113 | the four passes are one per class string plus the special pass, each active when its flag is false |
| FilterCharacters.PassStep | src/filterCharacters.ts:61-65 | one more pass removes exactly what its class matches |
| FilterCharacters.Drop | src/filterCharacters.ts:63 | removing a class keeps exactly the units outside it |
| FilterCharacters.EscapeEntriesRead | src/filterCharacters.ts:39-44 | `OtherWhitelist`/`EscapeEntries`: the escaped `other` string, read as a class body, stands for the concatenated `other` entries |
| FilterCharacters.CharacterStrings | src/filterCharacters.ts:46-59 | the class strings come in the order extended, numeric, alpha; extended is a negated class (what it keeps) and numeric and alpha list what they remove |
| FilterCharacters.ExtendedPass | src/filterCharacters.ts:50 | the extended class matches the units outside ' '..'~' that `other` does not name |
| FilterCharacters.NumericPass | src/filterCharacters.ts:54 | the numeric class matches the digits that `other` does not name |
| FilterCharacters.AlphaPass | src/filterCharacters.ts:55-58 | the alpha class matches the ASCII letters that `other` does not name |
| FilterCharacters.SpecialPass | src/filterCharacters.ts:67-113 | `SpecialClass`: the special class matches the listed special characters that are not an `other` entry |
| FilterCharacters.SpecialsNotListedConcat | src/filterCharacters.ts:105-107 | `SpecialsNotListed`: the special characters left after the filter are the listed units not named by an `other` entry |
| FilterCharacters.PassesMeanRemoved | src/filterCharacters.ts:61-113 | a unit survives all four passes exactly when the removal rule keeps it |
| FilterCharacters.AfterAllPasses | src/filterCharacters.ts:61-113 | the four passes together compute `Kept` |
| FilterCharacters.Kept | src/filterCharacters.ts:61-114 | a unit is in the result exactly when it is in the input and the rule does not remove it |
| FilterCharacters.IdentityWhitelistKeepsAll | src/filterCharacters.ts:9-17 | `IsIdentityWhitelist`: the early return agrees with the removal rule |
| FilterCharacters.NoFlagOffKeepsAll | src/filterCharacters.ts:9-17 | with no flag false nothing is removed, whatever `other` holds |
| FilterCharacters.KeptIsSubsequence | src/filterCharacters.ts:63 | the filter only deletes units and keeps the order of the rest |
| FilterCharacters.ListedNeverRemoved | src/filterCharacters.ts:39-58 | a character that is an `other` entry keeps every occurrence |
| FilterCharacters.FlagsOff | src/filterCharacters.ts:61-113 | alpha, numeric or extended set to false leaves only units of the other classes or those `other` names; special set to false leaves no special character that is not an `other` entry |
| FilterCharacters.KeptIdempotent | src/filterCharacters.ts:61-114 | filtering twice removes nothing more |
| FilterCharacters.DropCommutes | src/filterCharacters.ts:61-65 | two class removals give the same result in either order |
| FilterCharacters.AllOffRemovesAll | src/filterCharacters.ts:50-103 | with every flag false and no `other` units, nothing survives |
| FilterCharacters.ExtendedCharactersIgnored | src/interfaces/ICharacterWhitelist.ts:9 | the declared `extendedCharacters` flag has no effect, because the function reads `extended` |

## Left out

- src/processors/DateSegmentProcessor.ts is not part of this model. It wraps the date-fns library, whose code is not available.
- Floating-point numbers are not modelled. `Number(...)` in float `parse`, `parseFloat` with `Math.ceil`/`Math.round` in the integer ceil and round branches of `parse`, and the string-to-number conversion that `Math.ceil`, `Math.round` and `Math.floor` apply to a string value in the integer `format` are left as uninterpreted conversions (`Converts`, `Unconverted`) that carry the text handed to them.
- Numbers are integers plus NaN. Values beyond 2^53, exponent notation in `toString`, infinities and negative zero are not modelled; `parseInt('-0')` is the integer 0.
- SegmentProcessor.Trim: compares one UTF-16 code unit at a time. lodash `trimStart`/`trimEnd` first split a string that holds a surrogate, a combining mark (U+0300-036F, U+FE20-FE2F, U+20D0-20FF), a zero-width joiner or a variation selector into characters, each holding such units together with the units before them. On such strings the model may differ: trimming ' ' from the start of `' \u0301a'` gives `'\u0301a'` in the model, while lodash returns the string unchanged because the space and the combining mark form one character.
- The `typeof input !== 'string'` branch of `parse` (src/FixedWidthParser.ts:105-107) cannot be reached with a typed input.
- Configuration fields other than type, name, start, width and padChar are not carried through construction. A padChar explicitly set to undefined, which the spread would copy over the default, is modelled as absent.
- The message of the TypeError that float `format` raises on undefined or null comes from the engine; the model records only that it is raised.
- The `format` methods of the parsers and processors declare their input as an array of records (src/FixedWidthParser.ts:11, 40 and 60; src/processors/SegmentProcessor.ts:26) but read it as one record, `input[config.name]`. The model takes a single record; indexing an array by a segment name is not modelled.
- The public API that appears only in the tests is not modelled: `unparse`, truncation, configuration validation, sorting, and the 'int'/'bool' tags.
- FilterCharacters.FilterCharacters: requires every multi-unit `other` entry to be free of `\`, `]`, `-` and `^`. Such an entry is pasted unescaped into a regular-expression class, where it would form a range, an escape, a negation or the end of the class.
- TrimString.TrimString: requires the input or `charToRemove` to be non-empty. With both empty the source loops forever, because `charAt` of '' is '', which equals ''.

## Findings

| source | as written | input that shows it | evidently intended | confidence | as-written member | corrected member |
|---|---|---|---|---|---|---|
| src/splice.ts:6 | `splice` inserts before the unit at `positionToInsert`, and float `parse` (src/processors/FloatSegmentProcessor.ts:20) puts the point at `length - 1 - decimalCount`, leaving `decimalCount + 1` units after it | `splice('123567', '4', 2)` gives '1243567' where test/splice.spec.ts:9-11 expects '1234567'; '314159' at width 10 with 3 decimals gives '000031.4159' (31.4159) where test/parse.spec.ts:261-281 expects 314.159 | insert after the unit at the position (`slice(0, p + 1) + insert + slice(p + 1)`), which gives the splice test's value and leaves exactly `decimalCount` units after the point | not executed | Splice.SpliceTestAsWritten | Splice.SpliceAfterTest |

=== FILE: boolean_segment_processor.dfy ===
/** Model of src/processors/BooleanSegmentProcessor.ts: a segment holding
    one of two configured strings. */
module BooleanSegmentProcessor {
  import opened JsCore
  import opened SegmentProcessor

  /** `parse(input, config)`: true for `trueValue`, tested first; false for
      `falseValue`; undefined for anything else. */
  function BooleanParse(input: JsString, config: SegmentConfig): (r: Parsed)
    requires config.options.BooleanOptions?
    ensures r.Yields?
    ensures r.value == Bool(true) <==> input == config.options.trueValue
    ensures r.value == Bool(false) <==> input == config.options.falseValue && input != config.options.trueValue
    ensures r.value == Undefined <==> input != config.options.trueValue && input != config.options.falseValue
  {
    if input == config.options.trueValue then Yields(Bool(true))
    else if input == config.options.falseValue then Yields(Bool(false))
    else Yields(Undefined)
  }

  /** `format(input, config)`: `trueValue` for a truthy value under
      `config.name`, `falseValue` otherwise (a missing key included). */
  function BooleanFormat(record: Record, config: SegmentConfig): (r: Formatted)
    requires config.options.BooleanOptions?
    ensures r.Text?
    ensures Truthy(Lookup(record, config.name)) ==> r.text == config.options.trueValue
    ensures !Truthy(Lookup(record, config.name)) ==> r.text == config.options.falseValue
  {
    Text(if Truthy(Lookup(record, config.name)) then config.options.trueValue else config.options.falseValue)
  }

  /** With distinct strings a boolean survives formatting and parsing. */
  lemma BooleanRoundTrip(b: bool, config: SegmentConfig)
    requires config.options.BooleanOptions?
    requires config.options.trueValue != config.options.falseValue
    ensures BooleanParse(BooleanFormat(map[config.name := Bool(b)], config).text, config) == Yields(Bool(b))
  {
  }

  /** With equal strings every match parses to true. */
  lemma BooleanSameValues(input: JsString, config: SegmentConfig)
    requires config.options.BooleanOptions?
    requires config.options.trueValue == config.options.falseValue == input
    ensures BooleanParse(input, config) == Yields(Bool(true))
  {
  }
}

=== FILE: filter_characters.dfy ===
/** Model of src/filterCharacters.ts: delete from a raw segment the code
    units of every character class the whitelist switches off, except the
    units the whitelist lists under `other`.

    The source builds regular-expression character classes as strings and
    removes their matches with `String.prototype.replace`. A class is
    modelled by its body string (`CharClass`), read the way the regular
    expression engine reads a body that contains no range and no leading
    `^` (`Unescape`); removing the matches of a class is `Drop`. */
module FilterCharacters {
  import opened JsCore

  /** `ICharacterWhitelist` as the function reads it. A flag is undefined,
      true or false; only false has an effect. `extendedCharacters` is the
      flag the interface declares, `extended` the key the function reads. */
  datatype CharacterWhitelist = CharacterWhitelist(
    alpha: Option<bool>,
    numeric: Option<bool>,
    special: Option<bool>,
    extendedCharacters: Option<bool>,
    extended: Option<bool>,
    other: Option<seq<JsString>>)

  /** `flag === false`. */
  predicate Off(flag: Option<bool>)
  {
    flag == Some(false)
  }

  /** The `other` entries, with an absent list read as empty. */
  function OtherEntries(wl: CharacterWhitelist): seq<JsString>
  {
    wl.other.GetOr([])
  }

  /** `entries.join('')`. */
  function Concat(entries: seq<JsString>): JsString
  {
    if entries == [] then [] else entries[0] + Concat(entries[1..])
  }

  // ---------------------------------------------------------------------
  // Character classes

  /** ASCII letters. */
  predicate IsAlpha(u: CodeUnit)
  {
    0x41 <= u <= 0x5A || 0x61 <= u <= 0x7A
  }

  /** ASCII digits. */
  predicate IsDigit(u: CodeUnit)
  {
    0x30 <= u <= 0x39
  }

  /** The printable ASCII range ' '..'~'. */
  predicate IsPrintableAscii(u: CodeUnit)
  {
    SPACE <= u <= TILDE
  }

  const DIGIT_STRING: JsString := Lit("1234567890")
  const ALPHA_STRING: JsString := Lit("abcdefghijklmnopqrstuvwxyz") + Lit("ABCDEFGHIJKLMNOPQRSTUVWXYZ")

  /** The units of `SPECIAL_CHARACTERS`, in source order; '-' is listed twice,
      so the 34 entries name 33 distinct characters. */
  const SPECIAL_STRING: JsString := Lit("-~`!@#$%^&*()-_=+[]{}|\\/;:'\",.<>? ")

  /** `SPECIAL_CHARACTERS`: one one-unit string per entry. */
  const SPECIAL_CHARACTERS: seq<JsString> := Singletons(SPECIAL_STRING)

  /** One one-unit string per unit of s. */
  function Singletons(s: JsString): (r: seq<JsString>)
    ensures |r| == |s| && forall i | 0 <= i < |s| :: r[i] == [s[i]]
  {
    if s == [] then [] else [[s[0]]] + Singletons(s[1..])
  }

  /** `charactersToEscape`: the one-unit strings that get a backslash. */
  const CHARACTERS_TO_ESCAPE: JsString := Lit("-/\\^$*+?.()|[]{}")

  /** The units that would give a class body a meaning other than "these
      units": a range, an escape, the end of the class, a negation. */
  const CLASS_SYNTAX: JsString := Lit("\\]-^")

  predicate IsSpecial(u: CodeUnit)
  {
    u in SPECIAL_STRING
  }

  /** An `other` entry of one unit is always escaped safely; a longer entry
      is pasted into the class as it is, so it must not carry class syntax. */
  predicate ClassSafeEntry(e: JsString)
  {
    |e| == 1 || forall u | u in e :: u !in CLASS_SYNTAX
  }

  predicate ClassSafe(wl: CharacterWhitelist)
  {
    forall e | e in OtherEntries(wl) :: ClassSafeEntry(e)
  }

  /** Escape one entry: `charactersToEscape.includes(value) ? '\\' + value : value`. */
  function EscapeEntry(e: JsString): JsString
  {
    if |e| == 1 && e[0] in CHARACTERS_TO_ESCAPE then [BACKSLASH] + e else e
  }

  /** The `reduce` that concatenates the escaped entries in order. */
  function EscapeEntries(entries: seq<JsString>): JsString
  {
    if entries == [] then [] else EscapeEntry(entries[0]) + EscapeEntries(entries[1..])
  }

  /** The units a class body denotes when it holds no range: `\x` stands
      for x, any other unit for itself. */
  function Unescape(body: JsString): JsString
  {
    if body == [] then []
    else if body[0] == BACKSLASH && |body| >= 2 then [body[1]] + Unescape(body[2..])
    else [body[0]] + Unescape(body[1..])
  }

  /** A body made of whole tokens: every backslash has the unit it escapes. */
  predicate Tokens(body: JsString)
  {
    if body == [] then true
    else if body[0] == BACKSLASH then |body| >= 2 && Tokens(body[2..])
    else Tokens(body[1..])
  }

  /** A regular-expression character class: `[body]` or `[^low-high body]`. */
  datatype CharClass = AnyOf(body: JsString) | NoneOf(low: CodeUnit, high: CodeUnit, body: JsString)

  predicate InClass(u: CodeUnit, c: CharClass)
  {
    match c
    case AnyOf(body) => u in Unescape(body)
    case NoneOf(low, high, body) => !(low <= u <= high) && u !in Unescape(body)
  }

  /** `s.replace(new RegExp('[' + body + ']', 'g'), '')`: remove every unit
      the class matches, keeping the others in order. */
  function Drop(s: JsString, c: CharClass): (r: JsString)
    ensures |r| <= |s|
    ensures forall u :: u in r <==> u in s && !InClass(u, c)
  {
    if s == [] then []
    else if InClass(s[0], c) then Drop(s[1..], c)
    else [s[0]] + Drop(s[1..], c)
  }

  // ---------------------------------------------------------------------
  // The classes the source builds

  /** The keys of `characterStrings`, in the order `for...in` visits them. */
  datatype ClassKey = ExtendedKey | NumericKey | AlphaKey

  /** `characterWhitelist[key]`. */
  function KeyFlag(wl: CharacterWhitelist, key: ClassKey): Option<bool>
  {
    match key
    case ExtendedKey => wl.extended
    case NumericKey => wl.numeric
    case AlphaKey => wl.alpha
  }

  /** `otherWhitelist`: the escaped `other` entries. */
  function OtherWhitelist(wl: CharacterWhitelist): JsString
  {
    EscapeEntries(OtherEntries(wl))
  }

  /** `characterStrings`: the extended class keeps ' '..'~' and `other`; the
      numeric and alpha classes are the digit and letter strings with the
      `other` units deleted. */
  function CharacterStrings(otherWhitelist: JsString): (r: seq<(ClassKey, CharClass)>)
    ensures |r| == 3
    ensures r[0].0 == ExtendedKey && r[1].0 == NumericKey && r[2].0 == AlphaKey
    ensures r[0].1.NoneOf? && r[1].1.AnyOf? && r[2].1.AnyOf?
  {
    [ (ExtendedKey, NoneOf(SPACE, TILDE, otherWhitelist)),
      (NumericKey, AnyOf(Drop(DIGIT_STRING, AnyOf(otherWhitelist)))),
      (AlphaKey, AnyOf(Drop(ALPHA_STRING, AnyOf(otherWhitelist)))) ]
  }

  /** `SPECIAL_CHARACTERS.filter((char) => !other?.includes(char))`. */
  function SpecialsNotListed(specials: seq<JsString>, other: seq<JsString>): seq<JsString>
  {
    if specials == [] then []
    else if specials[0] in other then SpecialsNotListed(specials[1..], other)
    else [specials[0]] + SpecialsNotListed(specials[1..], other)
  }

  /** The class of the special pass. */
  function SpecialClass(wl: CharacterWhitelist): CharClass
  {
    AnyOf(EscapeEntries(SpecialsNotListed(SPECIAL_CHARACTERS, OtherEntries(wl))))
  }

  /** The early return: no `other` units and no flag false. */
  predicate IsIdentityWhitelist(wl: CharacterWhitelist)
  {
    && (wl.other.None? || Concat(wl.other.value) == [])
    && !Off(wl.special) && !Off(wl.alpha) && !Off(wl.numeric) && !Off(wl.extended)
  }

  // ---------------------------------------------------------------------
  // Specification

  /** The removal rule: a unit goes when a class it belongs to is switched
      off, unless `other` lists it. The extended, numeric and alpha passes
      spare every unit of the joined `other` entries; the special pass
      spares the characters that are themselves an `other` entry. */
  predicate Removed(u: CodeUnit, wl: CharacterWhitelist)
  {
    || (u !in Concat(OtherEntries(wl)) && RemovedByClass(u, wl))
    || (Off(wl.special) && IsSpecial(u) && [u] !in OtherEntries(wl))
  }

  /** u belongs to the extended, numeric or alpha class and that class is off. */
  predicate RemovedByClass(u: CodeUnit, wl: CharacterWhitelist)
  {
    || (Off(wl.extended) && !IsPrintableAscii(u))
    || (Off(wl.numeric) && IsDigit(u))
    || (Off(wl.alpha) && IsAlpha(u))
  }

  /** The units of s that the whitelist does not remove, in order. */
  function Kept(s: JsString, wl: CharacterWhitelist): (r: JsString)
    ensures |r| <= |s|
    ensures forall u :: u in r <==> u in s && !Removed(u, wl)
  {
    if s == [] then []
    else if Removed(s[0], wl) then Kept(s[1..], wl)
    else [s[0]] + Kept(s[1..], wl)
  }

  /** One removal pass: whether it runs, and the class it removes. */
  datatype Pass = Pass(active: bool, cls: CharClass)

  /** The pass the loop makes for one entry of `characterStrings`. */
  function ClassPass(wl: CharacterWhitelist, entry: (ClassKey, CharClass)): Pass
  {
    Pass(Off(KeyFlag(wl, entry.0)), entry.1)
  }

  /** The four passes in source order: extended, numeric, alpha (the
      `for...in` loop over `strings`, which is `characterStrings`), then
      special. */
  function Passes(wl: CharacterWhitelist, strings: seq<(ClassKey, CharClass)>): (r: seq<Pass>)
    requires |strings| == 3
    ensures |r| == 4
    ensures forall k | 0 <= k < 3 :: r[k] == ClassPass(wl, strings[k])
    ensures r[3] == Pass(Off(wl.special), SpecialClass(wl))
  {
    [ClassPass(wl, strings[0]), ClassPass(wl, strings[1]), ClassPass(wl, strings[2]),
     Pass(Off(wl.special), SpecialClass(wl))]
  }

  /** u survives the first n passes. */
  predicate SurvivesPasses(u: CodeUnit, passes: seq<Pass>, n: nat)
    requires n <= |passes|
  {
    n == 0 || (SurvivesPasses(u, passes, n - 1) && !(passes[n - 1].active && InClass(u, passes[n - 1].cls)))
  }

  /** s after the first n passes. */
  function AfterPasses(s: JsString, passes: seq<Pass>, n: nat): JsString
    requires n <= |passes|
  {
    if s == [] then []
    else if SurvivesPasses(s[0], passes, n) then [s[0]] + AfterPasses(s[1..], passes, n)
    else AfterPasses(s[1..], passes, n)
  }

  // ---------------------------------------------------------------------
  // The function itself

  /** `filterCharacters(rawString, characterWhitelist)`. */
  method FilterCharacters(rawString: JsString, characterWhitelist: CharacterWhitelist)
    returns (newString: JsString)
    requires ClassSafe(characterWhitelist)
    ensures newString == Kept(rawString, characterWhitelist)
  {
    if IsIdentityWhitelist(characterWhitelist) {
      IdentityWhitelistKeepsAll(rawString, characterWhitelist);
      return rawString;
    }

    var otherWhitelist := EscapeEntries(OtherEntries(characterWhitelist));
    var characterStrings := CharacterStrings(otherWhitelist);
    newString := RemoveClasses(rawString, characterWhitelist, characterStrings);
    ghost var passes := Passes(characterWhitelist, characterStrings);

    PassStep(rawString, passes, 3);
    if characterWhitelist.special == Some(false) {
      var specialChars := SpecialsNotListed(SPECIAL_CHARACTERS, OtherEntries(characterWhitelist));
      var escapedSpecialChars := EscapeEntries(specialChars);
      newString := Drop(newString, AnyOf(escapedSpecialChars));
    }
    AfterAllPasses(rawString, characterWhitelist);
  }

  /** The `for...in` loop of `filterCharacters` over `characterStrings`:
      each class whose flag is false is removed in turn. */
  method RemoveClasses(rawString: JsString, characterWhitelist: CharacterWhitelist,
                       characterStrings: seq<(ClassKey, CharClass)>)
    returns (newString: JsString)
    requires |characterStrings| == 3
    ensures newString == AfterPasses(rawString, Passes(characterWhitelist, characterStrings), 3)
  {
    ghost var passes := Passes(characterWhitelist, characterStrings);
    NoPassKeepsAll(rawString, passes);
    newString := rawString;
    for k := 0 to |characterStrings|
      invariant newString == AfterPasses(rawString, passes, k)
    {
      var (key, characterClass) := characterStrings[k];
      assert passes[k] == ClassPass(characterWhitelist, (key, characterClass));
      PassStep(rawString, passes, k);
      if KeyFlag(characterWhitelist, key) == Some(false) {
        newString := Drop(newString, characterClass);
      }
    }
  }

  // ---------------------------------------------------------------------
  // Proof that the passes implement the removal rule

  /** One more pass removes exactly what that pass's class matches. */
  lemma {:induction false} PassStep(s: JsString, passes: seq<Pass>, n: nat)
    requires n < |passes|
    ensures AfterPasses(s, passes, n + 1)
      == if passes[n].active then Drop(AfterPasses(s, passes, n), passes[n].cls) else AfterPasses(s, passes, n)
  {
    if s != [] {
      PassStep(s[1..], passes, n);
      var rest := AfterPasses(s[1..], passes, n);
      if SurvivesPasses(s[0], passes, n) {
        var before := [s[0]] + rest;
        assert AfterPasses(s, passes, n) == before;
        assert before[0] == s[0] && before[1..] == rest;
      }
    }
  }

  lemma {:induction false} NoPassKeepsAll(s: JsString, passes: seq<Pass>)
    ensures AfterPasses(s, passes, 0) == s
  {
    if s != [] {
      NoPassKeepsAll(s[1..], passes);
    }
  }

  lemma ConcatCons(e: JsString, entries: seq<JsString>)
    ensures Concat([e] + entries) == e + Concat(entries)
  {
    assert ([e] + entries)[1..] == entries;
  }

  /** Every unit of an entry occurs in the joined string. */
  lemma {:induction false} ConcatContains(entries: seq<JsString>, e: JsString, u: CodeUnit)
    requires e in entries && u in e
    ensures u in Concat(entries)
    decreases |entries|
  {
    if entries[0] != e {
      assert e in entries[1..];
      ConcatContains(entries[1..], e, u);
    }
  }

  /** A body of whole tokens is read independently of what follows it. */
  lemma {:induction false} UnescapeAppend(a: JsString, b: JsString)
    requires Tokens(a)
    ensures Unescape(a + b) == Unescape(a) + Unescape(b)
    decreases |a|
  {
    if a != [] {
      assert (a + b)[0] == a[0];
      if a[0] == BACKSLASH {
        assert |a| >= 2 && Tokens(a[2..]);
        assert (a + b)[1] == a[1];
        assert (a + b)[2..] == a[2..] + b;
        UnescapeAppend(a[2..], b);
        assert Unescape(a + b) == [a[1]] + Unescape(a[2..] + b);
        assert Unescape(a) == [a[1]] + Unescape(a[2..]);
      } else {
        assert (a + b)[1..] == a[1..] + b;
        UnescapeAppend(a[1..], b);
        assert Unescape(a + b) == [a[0]] + Unescape(a[1..] + b);
        assert Unescape(a) == [a[0]] + Unescape(a[1..]);
      }
    } else {
      assert a + b == b;
    }
  }

  /** A body without backslashes denotes its own units. */
  lemma {:induction false} UnescapePlain(body: JsString)
    requires BACKSLASH !in body
    ensures Unescape(body) == body && Tokens(body)
    decreases |body|
  {
    if body != [] {
      assert BACKSLASH !in body[1..];
      UnescapePlain(body[1..]);
    }
  }

  lemma EscapeEntryRead(e: JsString)
    requires ClassSafeEntry(e)
    ensures Tokens(EscapeEntry(e)) && Unescape(EscapeEntry(e)) == e
  {
    assert BACKSLASH in CHARACTERS_TO_ESCAPE by { assert CHARACTERS_TO_ESCAPE[2] == BACKSLASH; }
    assert BACKSLASH in CLASS_SYNTAX by { assert CLASS_SYNTAX[0] == BACKSLASH; }
    if |e| == 1 && e[0] in CHARACTERS_TO_ESCAPE {
      var escaped := [BACKSLASH] + e;
      assert escaped[2..] == [];
      assert Unescape(escaped) == [escaped[1]] + Unescape(escaped[2..]);
    } else {
      UnescapePlain(e);
    }
  }

  /** Escaping the entries and reading the class back gives the joined
      entries: each `other` character stands for itself in the class. */
  lemma {:induction false} EscapeEntriesRead(entries: seq<JsString>)
    requires forall e | e in entries :: ClassSafeEntry(e)
    ensures Unescape(EscapeEntries(entries)) == Concat(entries)
    decreases |entries|
  {
    if entries != [] {
      assert forall e | e in entries[1..] :: e in entries;
      EscapeEntriesRead(entries[1..]);
      EscapeEntryRead(entries[0]);
      UnescapeAppend(EscapeEntry(entries[0]), EscapeEntries(entries[1..]));
    }
  }

  /** The special characters the filter keeps are one-unit entries, and
      their units are the listed units that `other` does not name. */
  lemma {:induction false} SpecialsNotListedConcat(chars: JsString, other: seq<JsString>, u: CodeUnit)
    ensures forall e | e in SpecialsNotListed(Singletons(chars), other) :: |e| == 1
    ensures u in Concat(SpecialsNotListed(Singletons(chars), other)) <==> u in chars && [u] !in other
  {
    if chars != [] {
      var all := Singletons(chars);
      assert all[0] == [chars[0]];
      assert all[1..] == Singletons(chars[1..]);
      SpecialsNotListedConcat(chars[1..], other, u);
      var rest := SpecialsNotListed(Singletons(chars[1..]), other);
      assert u in chars <==> u == chars[0] || u in chars[1..] by {
        assert chars == [chars[0]] + chars[1..];
      }
      if [chars[0]] !in other {
        assert SpecialsNotListed(all, other) == [[chars[0]]] + rest;
        ConcatCons([chars[0]], rest);
      }
    }
  }

  lemma DigitString()
    ensures DIGIT_STRING == [0x31, 0x32, 0x33, 0x34, 0x35, 0x36, 0x37, 0x38, 0x39, 0x30]
  {
  }

  lemma SpecialString()
    ensures SPECIAL_STRING == [0x2D, 0x7E, 0x60, 0x21, 0x40, 0x23, 0x24, 0x25, 0x5E, 0x26, 0x2A,
                               0x28, 0x29, 0x2D, 0x5F, 0x3D, 0x2B, 0x5B, 0x5D, 0x7B, 0x7D, 0x7C,
                               0x5C, 0x2F, 0x3B, 0x3A, 0x27, 0x22, 0x2C, 0x2E, 0x3C, 0x3E, 0x3F, 0x20]
  {
  }

  lemma AlphaString()
    ensures |ALPHA_STRING| == 52
    ensures forall i | 0 <= i < 26 :: ALPHA_STRING[i] == (0x61 + i) as CodeUnit
    ensures forall i | 26 <= i < 52 :: ALPHA_STRING[i] == (0x41 + i - 26) as CodeUnit
  {
  }

  lemma AlphaStringIsLetters(u: CodeUnit)
    ensures u in ALPHA_STRING <==> IsAlpha(u)
  {
    AlphaString();
    if IsAlpha(u) {
      if u <= 0x5A {
        assert ALPHA_STRING[u as int - 0x41 + 26] == u;
      } else {
        assert ALPHA_STRING[u as int - 0x61] == u;
      }
    }
  }

  /** The extended pass removes the units outside ' '..'~' that `other` does not name. */
  lemma ExtendedPass(wl: CharacterWhitelist, u: CodeUnit)
    requires ClassSafe(wl)
    ensures InClass(u, NoneOf(SPACE, TILDE, OtherWhitelist(wl)))
      <==> !IsPrintableAscii(u) && u !in Concat(OtherEntries(wl))
  {
    EscapeEntriesRead(OtherEntries(wl));
  }

  /** The numeric pass removes the digits that `other` does not name. */
  lemma NumericPass(wl: CharacterWhitelist, u: CodeUnit)
    requires ClassSafe(wl)
    ensures InClass(u, AnyOf(Drop(DIGIT_STRING, AnyOf(OtherWhitelist(wl)))))
      <==> IsDigit(u) && u !in Concat(OtherEntries(wl))
  {
    var digits := Drop(DIGIT_STRING, AnyOf(OtherWhitelist(wl)));
    DigitStringIsDigits(u);
    DigitStringIsDigits(BACKSLASH);
    UnescapePlain(digits);
    EscapeEntriesRead(OtherEntries(wl));
    assert InClass(u, AnyOf(digits)) <==> u in digits;
  }

  lemma DigitStringIsDigits(u: CodeUnit)
    ensures u in DIGIT_STRING <==> IsDigit(u)
  {
    DigitString();
  }

  /** The alpha pass removes the letters that `other` does not name. */
  lemma AlphaPass(wl: CharacterWhitelist, u: CodeUnit)
    requires ClassSafe(wl)
    ensures InClass(u, AnyOf(Drop(ALPHA_STRING, AnyOf(OtherWhitelist(wl)))))
      <==> IsAlpha(u) && u !in Concat(OtherEntries(wl))
  {
    var letters := Drop(ALPHA_STRING, AnyOf(OtherWhitelist(wl)));
    AlphaStringIsLetters(u);
    AlphaStringIsLetters(BACKSLASH);
    UnescapePlain(letters);
    EscapeEntriesRead(OtherEntries(wl));
    assert InClass(u, AnyOf(letters)) <==> u in letters;
  }

  /** The special pass removes the special characters that are not an `other` entry. */
  lemma SpecialPass(wl: CharacterWhitelist, u: CodeUnit)
    ensures InClass(u, SpecialClass(wl)) <==> IsSpecial(u) && [u] !in OtherEntries(wl)
  {
    SpecialsNotListedConcat(SPECIAL_STRING, OtherEntries(wl), u);
    EscapeEntriesRead(SpecialsNotListed(SPECIAL_CHARACTERS, OtherEntries(wl)));
  }

  /** Surviving four passes is escaping each of them. */
  lemma SurvivesFour(u: CodeUnit, passes: seq<Pass>)
    requires |passes| == 4
    ensures SurvivesPasses(u, passes, 4) <==>
      && !(passes[0].active && InClass(u, passes[0].cls))
      && !(passes[1].active && InClass(u, passes[1].cls))
      && !(passes[2].active && InClass(u, passes[2].cls))
      && !(passes[3].active && InClass(u, passes[3].cls))
  {
    assert SurvivesPasses(u, passes, 1) <==> !(passes[0].active && InClass(u, passes[0].cls));
    assert SurvivesPasses(u, passes, 2) <==>
      SurvivesPasses(u, passes, 1) && !(passes[1].active && InClass(u, passes[1].cls));
    assert SurvivesPasses(u, passes, 3) <==>
      SurvivesPasses(u, passes, 2) && !(passes[2].active && InClass(u, passes[2].cls));
  }

  /** Surviving all four passes is exactly not being removed. */
  lemma PassesMeanRemoved(wl: CharacterWhitelist, u: CodeUnit)
    requires ClassSafe(wl)
    ensures SurvivesPasses(u, Passes(wl, CharacterStrings(OtherWhitelist(wl))), 4) <==> !Removed(u, wl)
  {
    var passes := Passes(wl, CharacterStrings(OtherWhitelist(wl)));
    var other := OtherWhitelist(wl);
    assert passes[0] == Pass(Off(wl.extended), NoneOf(SPACE, TILDE, other));
    assert passes[1] == Pass(Off(wl.numeric), AnyOf(Drop(DIGIT_STRING, AnyOf(other))));
    assert passes[2] == Pass(Off(wl.alpha), AnyOf(Drop(ALPHA_STRING, AnyOf(other))));
    assert passes[3] == Pass(Off(wl.special), SpecialClass(wl));
    SurvivesFour(u, passes);
    ExtendedPass(wl, u);
    NumericPass(wl, u);
    AlphaPass(wl, u);
    SpecialPass(wl, u);
  }

  lemma {:induction false} AfterAllPasses(s: JsString, wl: CharacterWhitelist)
    requires ClassSafe(wl)
    ensures AfterPasses(s, Passes(wl, CharacterStrings(OtherWhitelist(wl))), 4) == Kept(s, wl)
  {
    if s != [] {
      PassesMeanRemoved(wl, s[0]);
      AfterAllPasses(s[1..], wl);
    }
  }

  // ---------------------------------------------------------------------
  // Properties of the filter

  /** With no flag false nothing is removed, whatever `other` holds; in
      particular the early return agrees with the passes. */
  lemma {:induction false} NoFlagOffKeepsAll(s: JsString, wl: CharacterWhitelist)
    requires !Off(wl.special) && !Off(wl.alpha) && !Off(wl.numeric) && !Off(wl.extended)
    ensures Kept(s, wl) == s
  {
    if s != [] {
      NoFlagOffKeepsAll(s[1..], wl);
    }
  }

  lemma IdentityWhitelistKeepsAll(s: JsString, wl: CharacterWhitelist)
    requires IsIdentityWhitelist(wl)
    ensures Kept(s, wl) == s
  {
    NoFlagOffKeepsAll(s, wl);
  }

  /** `a` is `b` with some units deleted, order kept. */
  predicate SubsequenceOf(a: JsString, b: JsString)
    decreases |b|
  {
    a == [] || (b != [] && ((a[0] == b[0] && SubsequenceOf(a[1..], b[1..])) || SubsequenceOf(a, b[1..])))
  }

  /** The filter only deletes units and keeps the order of the rest. */
  lemma {:induction false} KeptIsSubsequence(s: JsString, wl: CharacterWhitelist)
    ensures SubsequenceOf(Kept(s, wl), s)
  {
    if s != [] {
      KeptIsSubsequence(s[1..], wl);
      if !Removed(s[0], wl) {
        assert Kept(s, wl) == [s[0]] + Kept(s[1..], wl);
        assert Kept(s, wl)[1..] == Kept(s[1..], wl);
      }
    }
  }

  /** A character listed in `other` keeps every one of its occurrences. */
  lemma {:induction false} ListedNeverRemoved(s: JsString, wl: CharacterWhitelist, u: CodeUnit)
    requires [u] in OtherEntries(wl)
    ensures Count(Kept(s, wl), u) == Count(s, u)
  {
    ConcatContains(OtherEntries(wl), [u], u);
    if s != [] {
      ListedNeverRemoved(s[1..], wl, u);
    }
  }

  /** What each flag set to false guarantees about the result. */
  lemma FlagsOff(s: JsString, wl: CharacterWhitelist)
    ensures Off(wl.alpha) ==> forall u | u in Kept(s, wl) :: !IsAlpha(u) || u in Concat(OtherEntries(wl))
    ensures Off(wl.numeric) ==> forall u | u in Kept(s, wl) :: !IsDigit(u) || u in Concat(OtherEntries(wl))
    ensures Off(wl.extended) ==>
      forall u | u in Kept(s, wl) :: IsPrintableAscii(u) || u in Concat(OtherEntries(wl))
    ensures Off(wl.special) ==> forall u | u in Kept(s, wl) :: !IsSpecial(u) || [u] in OtherEntries(wl)
  {
  }

  /** Filtering twice removes nothing more. */
  lemma {:induction false} KeptIdempotent(s: JsString, wl: CharacterWhitelist)
    ensures Kept(Kept(s, wl), wl) == Kept(s, wl)
  {
    if s != [] {
      KeptIdempotent(s[1..], wl);
      if !Removed(s[0], wl) {
        assert Kept(s, wl) == [s[0]] + Kept(s[1..], wl);
        assert Kept(s, wl)[1..] == Kept(s[1..], wl);
      }
    }
  }

  /** Removing two classes gives the same result in either order. */
  lemma {:induction false} DropCommutes(s: JsString, a: CharClass, b: CharClass)
    ensures Drop(Drop(s, a), b) == Drop(Drop(s, b), a)
  {
    if s != [] {
      DropCommutes(s[1..], a, b);
    }
  }

  /** The four classes cover every code unit: with every flag false and no
      `other` units, nothing survives. */
  lemma {:induction false} AllOffRemovesAll(s: JsString, wl: CharacterWhitelist)
    requires Off(wl.alpha) && Off(wl.numeric) && Off(wl.special) && Off(wl.extended)
    requires Concat(OtherEntries(wl)) == []
    ensures Kept(s, wl) == []
  {
    if s != [] {
      var u := s[0];
      if [u] in OtherEntries(wl) {
        ConcatContains(OtherEntries(wl), [u], u);
      }
      SpecialString();
      assert Removed(u, wl);
      AllOffRemovesAll(s[1..], wl);
    }
  }

  /** The declared `extendedCharacters` flag has no effect. */
  lemma ExtendedCharactersIgnored(s: JsString, wl: CharacterWhitelist, flag: Option<bool>)
    ensures Kept(s, wl.(extendedCharacters := flag)) == Kept(s, wl)
  {
    var wl' := wl.(extendedCharacters := flag);
    assert forall u :: Removed(u, wl') == Removed(u, wl);
    KeptCongruent(s, wl', wl);
  }

  lemma {:induction false} KeptCongruent(s: JsString, wl: CharacterWhitelist, wl': CharacterWhitelist)
    requires forall u :: Removed(u, wl) == Removed(u, wl')
    ensures Kept(s, wl) == Kept(s, wl')
  {
    if s != [] {
      KeptCongruent(s[1..], wl, wl');
    }
  }
}

=== FILE: fixed_width_parser.dfy ===
/** Model of src/FixedWidthParser.ts: the parsers registered by type tag,
    construction (each segment configuration overlaid on its type's
    defaults), and `parse`, which splits the input into lines and maps each
    line to a record. */
module FixedWidth {
  import opened JsCore

  /** The registered parsers, `[new StringParser(), new SkipParser()]`. */
  datatype ParserKind = StringParser | SkipParser

  const PARSERS: seq<ParserKind> := [StringParser, SkipParser]

  /** The `type` each parser answers to. */
  function ParserType(kind: ParserKind): JsString
  {
    match kind
    case StringParser => Lit("string")
    case SkipParser => Lit("skip")
  }

  /** A segment configuration as the caller writes it: the unique fields and
      an optional `padChar`. */
  datatype SegmentInput = SegmentInput(
    typeTag: JsString,
    name: JsString,
    start: int,
    width: int,
    padChar: Option<JsString>)

  /** A segment configuration after its defaults are applied. */
  datatype Segment = Segment(
    typeTag: JsString,
    name: JsString,
    start: int,
    width: int,
    padChar: JsString)

  /** `defaultSegmentConfig.padChar` of each parser. */
  function DefaultPadChar(kind: ParserKind): JsString
  {
    match kind
    case StringParser => Lit(" ")
    case SkipParser => Lit(" ")
  }

  /** `parsers.find(parser => parser.typeTag === typeTag)`. */
  function FindParser(parsers: seq<ParserKind>, typeTag: JsString): (r: Option<ParserKind>)
    ensures r.None? <==> forall k | 0 <= k < |parsers| :: ParserType(parsers[k]) != typeTag
    ensures r.Some? ==> ParserType(r.value) == typeTag && r.value in parsers
  {
    if parsers == [] then None
    else if ParserType(parsers[0]) == typeTag then Some(parsers[0])
    else FindParser(parsers[1..], typeTag)
  }

  /** A segment whose type some registered parser handles. */
  predicate Known(segment: SegmentInput)
  {
    FindParser(PARSERS, segment.typeTag).Some?
  }

  /** The error construction throws for a segment of an unknown type. */
  function NoParserMessage(segment: SegmentInput): JsString
  {
    Lit("No parser for type '") + segment.typeTag + Lit("' found for segment name '") + segment.name + Lit("'")
  }

  /** `applySegementConfigDefaults(lineConfig)`: map every segment to
      `{ ...defaults, ...segment }`; the first segment of an unknown type
      aborts with an error. */
  function ApplyDefaults(lineConfig: seq<SegmentInput>): (r: Result<seq<Segment>>)
    ensures r.Ok? <==> forall i | 0 <= i < |lineConfig| :: Known(lineConfig[i])
    ensures r.Ok? ==> |r.value| == |lineConfig|
    ensures r.Ok? ==> forall i | 0 <= i < |lineConfig| ::
      && r.value[i].typeTag == lineConfig[i].typeTag
      && r.value[i].name == lineConfig[i].name
      && r.value[i].start == lineConfig[i].start
      && r.value[i].width == lineConfig[i].width
      && r.value[i].padChar == lineConfig[i].padChar.GetOr(Lit(" "))
  {
    if lineConfig == [] then Ok([])
    else
      var segment := lineConfig[0];
      match FindParser(PARSERS, segment.typeTag)
      case None => Err(NoParserMessage(segment))
      case Some(kind) =>
        var rest := ApplyDefaults(lineConfig[1..]);
        if rest.Err? then Err(rest.message)
        else
          var full := Segment(segment.typeTag, segment.name, segment.start, segment.width,
            segment.padChar.GetOr(DefaultPadChar(kind)));
          Ok([full] + rest.value)
  }

  /** Construction fails with the error of the first segment of an unknown
      type. */
  lemma {:induction false} FirstUnknownAborts(lineConfig: seq<SegmentInput>)
    requires ApplyDefaults(lineConfig).Err?
    ensures exists i | 0 <= i < |lineConfig| ::
      && !Known(lineConfig[i])
      && (forall j | 0 <= j < i :: Known(lineConfig[j]))
      && ApplyDefaults(lineConfig).message == NoParserMessage(lineConfig[i])
  {
    if Known(lineConfig[0]) {
      var tail := lineConfig[1..];
      FirstUnknownAborts(tail);
      var i :| 0 <= i < |tail| && !Known(tail[i])
        && (forall j | 0 <= j < i :: Known(tail[j]))
        && ApplyDefaults(tail).message == NoParserMessage(tail[i]);
      assert lineConfig[i + 1] == tail[i];
      assert forall j | 0 <= j < i + 1 :: Known(lineConfig[j]) by {
        forall j | 0 <= j < i + 1 ensures Known(lineConfig[j]) {
          if j > 0 { assert lineConfig[j] == tail[j - 1]; }
        }
      }
    } else {
      assert !Known(lineConfig[0]);
    }
  }

  /** A constructed parser, holding the configuration with its defaults. */
  datatype FixedWidthParser = FixedWidthParser(lineConfig: seq<Segment>)

  /** `new FixedWidthParser(lineConfig)`. */
  function New(lineConfig: seq<SegmentInput>): (r: Result<FixedWidthParser>)
    ensures r.Ok? <==> ApplyDefaults(lineConfig).Ok?
    ensures r.Ok? ==> r.value.lineConfig == ApplyDefaults(lineConfig).value
    ensures r.Err? ==> r.message == ApplyDefaults(lineConfig).message
  {
    match ApplyDefaults(lineConfig)
    case Ok(segments) => Ok(FixedWidthParser(segments))
    case Err(message) => Err(message)
  }

  /** `s.replace(/\r\n/g, '\n')`: every CRLF, scanning left to right without
      overlap, becomes LF. */
  function NormalizeNewlines(s: JsString): (r: JsString)
    ensures |r| <= |s|
    ensures CR !in s ==> r == s
  {
    if s == [] then []
    else if |s| >= 2 && s[0] == CR && s[1] == LF then [LF] + NormalizeNewlines(s[2..])
    else [s[0]] + NormalizeNewlines(s[1..])
  }

  /** `s.split(u)` for a one-unit separator: the pieces between separators. */
  function Split(s: JsString, u: CodeUnit): (r: seq<JsString>)
    ensures r != []
    ensures forall k | 0 <= k < |r| :: u !in r[k]
    decreases |s|
  {
    if u !in s then [s]
    else
      var i := IndexOf(s, u);
      [s[..i]] + Split(s[i + 1..], u)
  }

  /** `pieces.join(u)`. */
  function Join(pieces: seq<JsString>, u: CodeUnit): JsString
  {
    if pieces == [] then []
    else if |pieces| == 1 then pieces[0]
    else pieces[0] + [u] + Join(pieces[1..], u)
  }

  /** `parseLine(input)`: still a stub that returns an empty record. */
  function ParseLine(line: JsString): Record
  {
    map[]
  }

  /** The lines `parse` maps: the input with CRLF made LF, split on LF. */
  function Lines(input: JsString): seq<JsString>
  {
    Split(NormalizeNewlines(input), LF)
  }

  /** `parse(input)`: an error for the empty input, otherwise one record per
      line, in line order. */
  function Parse(parser: FixedWidthParser, input: JsString): (r: Result<seq<Record>>)
    ensures r.Err? <==> input == []
    ensures r.Err? ==> r.message == Lit("Invalid input! Input is empty!")
    ensures r.Ok? ==> |r.value| == |Lines(input)|
    ensures r.Ok? ==> forall k | 0 <= k < |r.value| :: r.value[k] == ParseLine(Lines(input)[k])
  {
    if input == [] then Err(Lit("Invalid input! Input is empty!"))
    else
      var lines := Lines(input);
      Ok(seq(|lines|, k requires 0 <= k < |lines| => ParseLine(lines[k])))
  }

  /** `StringParser.parse`/`SkipParser.parse`. */
  function ParserParse(kind: ParserKind, input: JsString, config: Segment): (r: Record)
    ensures kind == StringParser ==> config.name in r && r[config.name] == Str(input) && |r| == 1
    ensures kind == SkipParser ==> r == map[]
  {
    match kind
    case StringParser => map[config.name := Str(input)]
    case SkipParser => map[]
  }

  /** `StringParser.format`/`SkipParser.format`. */
  function ParserFormat(kind: ParserKind, record: Record, config: Segment): (r: JsString)
    ensures kind == SkipParser ==> r == []
    ensures kind == StringParser && config.name in record && record[config.name].Str? ==>
      r == record[config.name].s
    ensures kind == StringParser && config.name !in record ==> r == Lit("undefined")
    ensures kind == StringParser && config.name in record && record[config.name].Number? ==>
      r == NumToString(record[config.name].n, 10)
    ensures kind == StringParser && config.name in record && record[config.name].Null? ==> r == Lit("null")
    ensures kind == StringParser && config.name in record && record[config.name].Bool? ==>
      r == if record[config.name].b then Lit("true") else Lit("false")
  {
    match kind
    case StringParser => ToString(Lookup(record, config.name))
    case SkipParser => []
  }

  // Properties

  /** Each registered type finds its parser; no other type finds one. */
  lemma RegisteredTypes(typeTag: JsString)
    ensures FindParser(PARSERS, typeTag) == Some(StringParser) <==> typeTag == Lit("string")
    ensures FindParser(PARSERS, typeTag) == Some(SkipParser) <==> typeTag == Lit("skip")
    ensures FindParser(PARSERS, typeTag).None? <==> typeTag != Lit("string") && typeTag != Lit("skip")
  {
    assert Lit("string")[1] != Lit("skip")[1];
  }

  /** Every CRLF becomes one LF: a CRLF between two texts is replaced by LF,
      and the texts on either side are normalised on their own. */
  lemma {:induction false} CrLfBecomesLf(a: JsString, b: JsString)
    ensures NormalizeNewlines(a + [CR, LF] + b) == NormalizeNewlines(a) + [LF] + NormalizeNewlines(b)
    decreases |a|
  {
    var s := a + [CR, LF] + b;
    if a == [] {
      assert s == [CR, LF] + b;
      assert s[2..] == b;
    } else if |a| >= 2 && a[0] == CR && a[1] == LF {
      assert s[2..] == a[2..] + [CR, LF] + b;
      CrLfBecomesLf(a[2..], b);
    } else {
      assert s[1..] == a[1..] + [CR, LF] + b;
      CrLfBecomesLf(a[1..], b);
    }
  }

  /** The registered parsers answer to different types. */
  lemma ParserTypesDistinct(a: ParserKind, b: ParserKind)
    ensures ParserType(a) == ParserType(b) <==> a == b
  {
    assert Lit("string")[1] != Lit("skip")[1];
  }

  /** Each parser's own default padChar is a single space. */
  lemma DefaultPadCharIsSpace(kind: ParserKind)
    ensures DefaultPadChar(kind) == [SPACE]
  {
  }

  /** The construction error quotes the segment's type and its name. */
  lemma NoParserMessageNames(segment: SegmentInput)
    ensures var m := NoParserMessage(segment);
            var t := |segment.typeTag|;
            |m| == 47 + t + |segment.name|
            && m[20..20 + t] == segment.typeTag
            && m[46 + t..46 + t + |segment.name|] == segment.name
  {
    var prefix := Lit("No parser for type '");
    var middle := Lit("' found for segment name '");
    assert NoParserMessage(segment) == prefix + segment.typeTag + middle + segment.name + Lit("'");
  }

  /** The `parseLine` stub answers the same empty record for any two lines. */
  lemma ParseLineIgnoresLine(a: JsString, b: JsString)
    ensures ParseLine(a) == ParseLine(b) && |ParseLine(a)| == 0
  {
  }

  /** Every registered parser pads with a space by default. */
  lemma PadCharDefault(lineConfig: seq<SegmentInput>, i: int)
    requires ApplyDefaults(lineConfig).Ok? && 0 <= i < |lineConfig|
    requires lineConfig[i].padChar.None?
    ensures ApplyDefaults(lineConfig).value[i].padChar == Lit(" ")
  {
  }

  /** The empty input is refused. */
  lemma EmptyInputFails(parser: FixedWidthParser)
    ensures Parse(parser, []) == Err(Lit("Invalid input! Input is empty!"))
  {
  }

  /** Every record of the stub `parseLine` is empty, whatever the line. */
  lemma AllRecordsEmpty(parser: FixedWidthParser, input: JsString)
    requires input != []
    ensures forall k | 0 <= k < |Parse(parser, input).value| :: Parse(parser, input).value[k] == map[]
  {
  }

  /** Splitting yields one piece more than there are separators. */
  lemma {:induction false} SplitCount(s: JsString, u: CodeUnit)
    ensures |Split(s, u)| == Count(s, u) + 1
    decreases |s|
  {
    if u !in s {
      CountAbsent(s, u);
    } else {
      var i := IndexOf(s, u);
      assert s == s[..i] + [u] + s[i + 1..];
      SplitCount(s[i + 1..], u);
      CountAbsent(s[..i], u);
      CountAppend(s[..i], [u], u);
      CountAppend(s[..i] + [u], s[i + 1..], u);
    }
  }

  /** Joining the pieces with the separator gives the text back. */
  lemma {:induction false} SplitJoin(s: JsString, u: CodeUnit)
    ensures Join(Split(s, u), u) == s
    decreases |s|
  {
    if u in s {
      var i := IndexOf(s, u);
      SplitJoin(s[i + 1..], u);
      assert s == s[..i] + [u] + s[i + 1..];
    }
  }

  /** Splitting undoes joining pieces that do not hold the separator. */
  lemma {:induction false} JoinSplit(pieces: seq<JsString>, u: CodeUnit)
    requires pieces != []
    requires forall k | 0 <= k < |pieces| :: u !in pieces[k]
    ensures Split(Join(pieces, u), u) == pieces
    decreases |pieces|
  {
    if |pieces| > 1 {
      var s := Join(pieces, u);
      var head := pieces[0];
      assert s == head + [u] + Join(pieces[1..], u);
      assert s[|head|] == u;
      assert u !in s[..|head|] by { assert s[..|head|] == head; }
      IndexOfFirst(s, u, |head|);
      var i := IndexOf(s, u);
      assert s[..i] == head;
      assert s[i + 1..] == Join(pieces[1..], u);
      JoinSplit(pieces[1..], u);
    }
  }

  /** Rewriting CRLF as LF keeps every LF. */
  lemma {:induction false} NormalizeKeepsLineFeeds(s: JsString)
    ensures Count(NormalizeNewlines(s), LF) == Count(s, LF)
    decreases |s|
  {
    if s != [] {
      if |s| >= 2 && s[0] == CR && s[1] == LF {
        NormalizeKeepsLineFeeds(s[2..]);
        assert s[1..][1..] == s[2..];
        assert ([LF] + NormalizeNewlines(s[2..]))[1..] == NormalizeNewlines(s[2..]);
      } else {
        NormalizeKeepsLineFeeds(s[1..]);
        assert ([s[0]] + NormalizeNewlines(s[1..]))[1..] == NormalizeNewlines(s[1..]);
      }
    }
  }

  /** A non-empty input yields one record per LF plus one: a lone CR
      separates nothing and a trailing newline adds an empty last line. */
  lemma RecordCount(parser: FixedWidthParser, input: JsString)
    requires input != []
    ensures |Parse(parser, input).value| == Count(input, LF) + 1
  {
    SplitCount(NormalizeNewlines(input), LF);
    NormalizeKeepsLineFeeds(input);
  }

  /** The lines hold no LF and, joined with LF, give the normalised input. */
  lemma LinesRejoin(input: JsString)
    ensures Join(Lines(input), LF) == NormalizeNewlines(input)
    ensures forall k | 0 <= k < |Lines(input)| :: LF !in Lines(input)[k]
  {
    SplitJoin(NormalizeNewlines(input), LF);
  }

  /** CR CR LF normalises to CR LF: the replacement is one pass. */
  lemma SinglePass()
    ensures NormalizeNewlines([CR, CR, LF]) == [CR, LF]
  {
    assert [CR, CR, LF][1..] == [CR, LF];
    assert [CR, LF][2..] == [];
  }

  /** The string parser's record formats back to the line it read. */
  lemma StringParserRoundTrip(input: JsString, config: Segment)
    ensures ParserFormat(StringParser, ParserParse(StringParser, input, config), config) == input
  {
  }
}

=== FILE: float_segment_processor.dfy ===
/** Model of src/processors/FloatSegmentProcessor.ts. Parsing builds the text
    handed to `Number` (an implied decimal point spliced into the zero-padded
    field); formatting computes a string of fixed decimals and then returns
    nothing. */
module FloatSegmentProcessor {
  import opened JsCore
  import opened Splice
  import opened SegmentProcessor

  /** The field padded with '0' to `width`, with '.' spliced in so that
      `decimalCount` + 1 units follow it (the position `length - 1 -
      decimalCount` is resolved like `slice` resolves it). */
  function ImpliedDecimal(input: JsString, width: int, decimalCount: int): (r: JsString)
    ensures var padded := PadStart(input, width, [ZERO]);
            var p := RelativeIndex(|padded| - 1 - decimalCount, |padded|);
            |r| == |padded| + 1 && r[p] == DOT && r[..p] + r[p + 1..] == padded
  {
    var padded := PadStart(input, width, [ZERO]);
    var r := Splice.Splice(padded, [DOT], |padded| - 1 - decimalCount);
    SpliceThenDelete(padded, [DOT], |padded| - 1 - decimalCount);
    r
  }

  /** `parse(input, config)`: text with a '.' goes to `Number` unchanged;
      other text gets the implied decimal point, `decimalCount` defaulting
      to 2. */
  function FloatParse(input: JsString, config: SegmentConfig): (r: Parsed)
    requires config.options.FloatOptions?
    ensures r.Converts? && r.conversion == NumberOf
    ensures DOT in input ==> r.text == input
    ensures DOT !in input ==>
      r.text == ImpliedDecimal(input, config.width, config.options.decimalCount.GetOr(2))
  {
    var decimalCount := config.options.decimalCount.GetOr(2);
    if DOT in input then Converts(NumberOf, input)
    else Converts(NumberOf, ImpliedDecimal(input, config.width, decimalCount))
  }

  /** Zero padding to the field width keeps the input as a suffix behind
      zeros and never cuts it. */
  lemma ZeroPadded(input: JsString, width: int)
    ensures var padded := PadStart(input, width, [ZERO]);
            |padded| == Max(width, |input|) && padded[|padded| - |input|..] == input
            && forall i | 0 <= i < |padded| - |input| :: padded[i] == ZERO
    ensures width <= |input| ==> PadStart(input, width, [ZERO]) == input
  {
  }

  /** Without a '.' in the input, the parsed text holds exactly one '.'. */
  lemma OneDecimalPoint(input: JsString, width: int, decimalCount: int)
    requires DOT !in input
    ensures Count(ImpliedDecimal(input, width, decimalCount), DOT) == 1
  {
    var padded := PadStart(input, width, [ZERO]);
    var p := RelativeIndex(|padded| - 1 - decimalCount, |padded|);
    var r := ImpliedDecimal(input, width, decimalCount);
    NoPointInPadding(input, width);
    assert r == padded[..p] + [DOT] + padded[p..] by {
      assert r == r[..p] + [r[p]] + r[p + 1..];
    }
    assert padded == padded[..p] + padded[p..];
    CountOneInserted(padded[..p], padded[p..], DOT);
  }

  /** Zero padding adds no '.'. */
  lemma NoPointInPadding(input: JsString, width: int)
    requires DOT !in input
    ensures DOT !in PadStart(input, width, [ZERO])
  {
    var padded := PadStart(input, width, [ZERO]);
    ZeroPadded(input, width);
    forall j | 0 <= j < |padded|
      ensures padded[j] != DOT
    {
      if j >= |padded| - |input| {
        assert padded[j] == input[j - (|padded| - |input|)];
      }
    }
  }

  /** One u inserted between two texts without u makes one occurrence. */
  lemma CountOneInserted(a: JsString, b: JsString, u: CodeUnit)
    requires u !in a && u !in b
    ensures Count(a + [u] + b, u) == 1
  {
    CountAbsent(a, u);
    CountAbsent(b, u);
    CountAppend(a, [u], u);
    CountAppend(a + [u], b, u);
  }

  /** When `length - 1 - decimalCount` lies within the padded text, '.' sits there and
      `decimalCount` + 1 units follow it. */
  lemma FractionDigits(input: JsString, width: int, decimalCount: int)
    requires 0 <= |PadStart(input, width, [ZERO])| - 1 - decimalCount <= |PadStart(input, width, [ZERO])|
    ensures var padded := PadStart(input, width, [ZERO]);
            var r := ImpliedDecimal(input, width, decimalCount);
            var p := |padded| - 1 - decimalCount;
            r[p] == DOT && |r[p + 1..]| == decimalCount + 1
  {
  }

  /** A `decimalCount` equal to the padded length makes the position -1,
      which counts from the end: '.' goes before the last unit. */
  lemma DecimalCountIsLength(input: JsString, width: int)
    requires PadStart(input, width, [ZERO]) != []
    ensures var padded := PadStart(input, width, [ZERO]);
            var r := ImpliedDecimal(input, width, |padded|);
            r[|padded| - 1] == DOT && r[|padded|] == padded[|padded| - 1]
  {
  }

  /** Width 10, decimalCount 3: '314159' becomes '000031.4159'. */
  lemma ImpliedDecimalExample()
    ensures ImpliedDecimal(Lit("314159"), 10, 3) == Lit("000031.4159")
  {
    ImpliedDecimalDigits(Lit("314159"), Lit("000031.4159"));
  }

  /** `ImpliedDecimalExample` on the code units of its two strings. */
  lemma ImpliedDecimalDigits(input: JsString, expected: JsString)
    requires input == [0x33, 0x31, 0x34, 0x31, 0x35, 0x39]
    requires expected == [0x30, 0x30, 0x30, 0x30, 0x33, 0x31, 0x2E, 0x34, 0x31, 0x35, 0x39]
    ensures ImpliedDecimal(input, 10, 3) == expected
  {
    var padded := PadStart(input, 10, [ZERO]);
    assert padded == [ZERO, ZERO, ZERO, ZERO] + input;
    var r := ImpliedDecimal(input, 10, 3);
    assert r[..6] == padded[..6] && r[7..] == padded[6..];
  }

  /** The implied-decimal text with the '.' inserted after the unit at
      `length - 1 - decimalCount`, as the float tests of
      test/parse.spec.ts:261-348 expect. */
  function ImpliedDecimalAfter(input: JsString, width: int, decimalCount: int): (r: JsString)
    ensures |r| == Max(width, |input|) + 1
  {
    ZeroPadded(input, width);
    var padded := PadStart(input, width, [ZERO]);
    SpliceAfter(padded, [DOT], |padded| - 1 - decimalCount)
  }

  /** A `decimalCount` from 0 to the padded length leaves exactly
      `decimalCount` units after the '.', and the units before and after it
      are the padded field. */
  lemma ImpliedDecimalAfterDigits(input: JsString, width: int, decimalCount: int)
    requires 0 <= decimalCount <= Max(width, |input|)
    ensures var padded := PadStart(input, width, [ZERO]);
            var r := ImpliedDecimalAfter(input, width, decimalCount);
            var q := |padded| - decimalCount;
            r[q] == DOT && |r[q + 1..]| == decimalCount
            && r[..q] + r[q + 1..] == padded
  {
    ZeroPadded(input, width);
    PointAfter(PadStart(input, width, [ZERO]), decimalCount);
  }

  /** `ImpliedDecimalAfterDigits` for any field text. */
  lemma PointAfter(padded: JsString, decimalCount: int)
    requires 0 <= decimalCount <= |padded|
    ensures var r := SpliceAfter(padded, [DOT], |padded| - 1 - decimalCount);
            var q := |padded| - decimalCount;
            r[q] == DOT && |r[q + 1..]| == decimalCount
            && r[..q] + r[q + 1..] == padded
  {
    var q := |padded| - decimalCount;
    var r := SpliceAfter(padded, [DOT], |padded| - 1 - decimalCount);
    assert r == padded[..q] + [DOT] + padded[q..];
    DeleteInserted(padded[..q], [DOT], padded[q..], r);
  }

  /** Width 10, decimalCount 3: '314159' becomes '0000314.159', which reads
      as 314.159. */
  lemma ImpliedDecimalAfterExample(input: JsString, expected: JsString)
    requires input == [0x33, 0x31, 0x34, 0x31, 0x35, 0x39]
    requires expected == [0x30, 0x30, 0x30, 0x30, 0x33, 0x31, 0x34, 0x2E, 0x31, 0x35, 0x39]
    ensures ImpliedDecimalAfter(input, 10, 3) == expected
  {
    var padded := PadStart(input, 10, [ZERO]);
    assert padded == [ZERO, ZERO, ZERO, ZERO] + input;
    var r := ImpliedDecimalAfter(input, 10, 3);
    assert r[..7] == padded[..7] && r[8..] == padded[7..];
  }

  /** Width 10, decimalCount 10: '9' becomes '.0000000009', which reads as
      0.0000000009. */
  lemma ImpliedDecimalAfterWhole(input: JsString, expected: JsString)
    requires input == [0x39]
    requires expected == [0x2E, 0x30, 0x30, 0x30, 0x30, 0x30, 0x30, 0x30, 0x30, 0x30, 0x39]
    ensures ImpliedDecimalAfter(input, 10, 10) == expected
  {
    var padded := PadStart(input, 10, [ZERO]);
    assert padded == [ZERO, ZERO, ZERO, ZERO, ZERO, ZERO, ZERO, ZERO, ZERO] + input;
    var r := ImpliedDecimalAfter(input, 10, 10);
    assert r == [DOT] + padded;
  }

  /** An absent `decimalCount` parses as 2. */
  lemma DefaultDecimalCount(input: JsString, config: SegmentConfig)
    requires config.options == FloatOptions(None)
    ensures FloatParse(input, config) == FloatParse(input, config.(options := FloatOptions(Some(2))))
  {
  }

  /** Where the digits kept by `format` end: the '.' (or the end of the
      text, for text without one) plus `decimalCount` units and the '.'. */
  function DecimalIndex(numAsStr: JsString): (r: nat)
    ensures r <= |numAsStr|
    ensures DOT in numAsStr ==> r < |numAsStr|
    ensures DOT in numAsStr ==> numAsStr[r] == DOT && DOT !in numAsStr[..r]
    ensures DOT !in numAsStr ==> r == |numAsStr|
  {
    if IndexOf(numAsStr, DOT) > -1 then IndexOf(numAsStr, DOT) else |numAsStr|
  }

  /** The string `format` computes from the value's text: the text cut to
      `decimalCount` (default 2) fraction digits, then, when `decimalCount`
      is given and more than the fraction digits kept, padded with '0' up to
      it. A negative count cuts into the digits before the '.'. */
  function FixedDecimals(numAsStr: JsString, decimalCount: Option<int>): JsString
  {
    var d := decimalCount.GetOr(2);
    var i := DecimalIndex(numAsStr);
    if d < 0 then Slice(numAsStr, 0, i + d + 1)
    else
      var fraction := if DOT in numAsStr then Min(|numAsStr| - i - 1, d) else 0;
      var kept := if DOT in numAsStr then numAsStr[..i + 1 + fraction] else numAsStr;
      if decimalCount.Some? && decimalCount.value > fraction
      then kept + Repeat(ZERO, decimalCount.value - fraction)
      else kept
  }

  /** `format`'s steps: slice, count the decimals kept, pad with '0'. */
  method FormatDecimals(numAsStr: JsString, decimalCount: Option<int>) returns (strippedDecimals: JsString)
    ensures strippedDecimals == FixedDecimals(numAsStr, decimalCount)
  {
    FormatSteps(numAsStr, decimalCount);
    var decimalIndex := DecimalIndex(numAsStr);
    strippedDecimals := Slice(numAsStr, 0, decimalIndex + decimalCount.GetOr(2) + 1);
    var currentDecimals := DecimalsAfterPoint(strippedDecimals);
    if decimalCount.Some? && decimalCount.value > currentDecimals {
      var decimalsNeeded := decimalCount.value - currentDecimals;
      ZeroFill(strippedDecimals, decimalsNeeded);
      strippedDecimals := PadEnd(strippedDecimals, |strippedDecimals| + decimalsNeeded, [ZERO]);
    }
  }

  /** `FixedDecimals` in the terms of `format`'s steps: the slice, then the
      '0's that bring its decimals up to `decimalCount`. */
  lemma FormatSteps(numAsStr: JsString, decimalCount: Option<int>)
    ensures var stripped := Slice(numAsStr, 0, DecimalIndex(numAsStr) + decimalCount.GetOr(2) + 1);
            var current := DecimalsAfterPoint(stripped);
            FixedDecimals(numAsStr, decimalCount)
              == if decimalCount.Some? && decimalCount.value > current
                 then stripped + Repeat(ZERO, decimalCount.value - current)
                 else stripped
  {
    var d := decimalCount.GetOr(2);
    var stripped := Slice(numAsStr, 0, DecimalIndex(numAsStr) + d + 1);
    if d >= 0 {
      KeptSteps(numAsStr, decimalCount, stripped);
    } else {
      assert FixedDecimals(numAsStr, decimalCount) == stripped;
    }
  }

  /** `FormatSteps` for a `decimalCount` of 0 or more. */
  lemma KeptSteps(numAsStr: JsString, decimalCount: Option<int>, stripped: JsString)
    requires decimalCount.GetOr(2) >= 0
    requires stripped == Slice(numAsStr, 0, DecimalIndex(numAsStr) + decimalCount.GetOr(2) + 1)
    ensures var current := DecimalsAfterPoint(stripped);
            FixedDecimals(numAsStr, decimalCount)
              == if decimalCount.Some? && decimalCount.value > current
                 then stripped + Repeat(ZERO, decimalCount.value - current)
                 else stripped
  {
    KeptDecimals(numAsStr, decimalCount.GetOr(2));
  }

  /** Text without a '.' gains no point: with `decimalCount` given it gets
      that many zeros, and without it is left as it is. */
  lemma FixedDecimalsWhole(numAsStr: JsString, decimalCount: Option<int>)
    requires DOT !in numAsStr
    ensures decimalCount.None? ==> FixedDecimals(numAsStr, decimalCount) == numAsStr
    ensures decimalCount.Some? && decimalCount.value >= 0 ==>
      FixedDecimals(numAsStr, decimalCount) == numAsStr + Repeat(ZERO, decimalCount.value)
  {
    if decimalCount == Some(0) {
      assert numAsStr + Repeat(ZERO, 0) == numAsStr;
    }
  }

  /** Text with a '.' keeps at most `decimalCount` (default 2) fraction
      digits; when `decimalCount` is given, zeros fill the fraction up to
      it, and otherwise nothing is added. */
  lemma FixedDecimalsFraction(numAsStr: JsString, decimalCount: Option<int>)
    requires DOT in numAsStr && decimalCount.GetOr(2) >= 0
    ensures var r := FixedDecimals(numAsStr, decimalCount);
      var i := DecimalIndex(numAsStr);
      var k := Min(|numAsStr| - i - 1, decimalCount.GetOr(2));
      && |r| == i + 1 + (if decimalCount.Some? then decimalCount.value else k)
      && r[..i + 1 + k] == numAsStr[..i + 1 + k]
      && forall j | i + 1 + k <= j < |r| :: r[j] == ZERO
  {
  }

  /** The first step of `format` keeps the text up to the '.' and at most
      `decimalCount` digits after it; the '.' stays where it was. */
  lemma KeptDecimals(numAsStr: JsString, decimalCount: int)
    requires decimalCount >= 0
    ensures var i := DecimalIndex(numAsStr);
            var stripped := Slice(numAsStr, 0, i + decimalCount + 1);
            var fraction := if DOT in numAsStr then Min(|numAsStr| - i - 1, decimalCount) else 0;
            && stripped == (if DOT in numAsStr then numAsStr[..i + 1 + fraction] else numAsStr)
            && DecimalsAfterPoint(stripped) == fraction
  {
    var i := DecimalIndex(numAsStr);
    if DOT in numAsStr {
      var stripped := numAsStr[..i + 1 + Min(|numAsStr| - i - 1, decimalCount)];
      assert stripped[..i] == numAsStr[..i];
      FirstPointCount(stripped, i);
    }
  }

  /** A string whose first '.' is at i has |s| - i - 1 decimals. */
  lemma FirstPointCount(s: JsString, i: nat)
    requires i < |s| && s[i] == DOT && DOT !in s[..i]
    ensures DecimalsAfterPoint(s) == |s| - i - 1
  {
    IndexOfFirst(s, DOT, i);
  }

  /** The count of decimals `format` finds in a string: the length of what
      follows its first '.', or 0 when it has none. */
  function DecimalsAfterPoint(s: JsString): (r: nat)
    ensures DOT in s ==> r == |s| - IndexOf(s, DOT) - 1
    ensures DOT !in s ==> r == 0
  {
    if IndexOf(s, DOT) > -1 then |Slice(s, IndexOf(s, DOT) + 1, |s|)| else 0
  }

  /** Padding with '0' by n appends n zeros. */
  lemma ZeroFill(s: JsString, n: nat)
    ensures PadEnd(s, |s| + n, [ZERO]) == s + Repeat(ZERO, n)
  {
    if n > 0 {
      assert Fill([ZERO], n) == Repeat(ZERO, n);
    }
  }

  /** `format(input, config)`: reading `toString` of an undefined or null
      value throws a TypeError; for every other value the decimals are
      computed and the method returns undefined. */
  method FloatFormat(record: Record, config: SegmentConfig) returns (r: Formatted)
    requires config.options.FloatOptions?
    ensures r == TypeErrorThrown <==> Lookup(record, config.name) in {Undefined, Null}
    ensures r != TypeErrorThrown ==> r == NoText
  {
    var v := Lookup(record, config.name);
    if v == Undefined || v == Null {
      return TypeErrorThrown;
    }
    var numAsStr := ToString(v);
    var strippedDecimals := FormatDecimals(numAsStr, config.options.decimalCount);
    r := NoText;
  }
}

=== FILE: handle_falsy_fallback.dfy ===
/** Model of src/handleFalsyFallback.ts: replace a falsy parse result by
    undefined or null, or pass it through with NaN turned into 0. */
module FalsyFallback {
  import opened JsCore

  /** The `falsyFallback` option: 'undefined' | 'null' | 'passthrough'. */
  datatype FalsyFallback = UndefinedFallback | NullFallback | Passthrough

  /** The parse results the function accepts: `string | number | false`. */
  predicate IsParsedScalar(v: Value)
  {
    v.Str? || v.Number? || v == Bool(false)
  }

  /** `handleFalsyFallback(value, falsyFallback)`. */
  function HandleFalsyFallback(value: Value, falsyFallback: FalsyFallback): (r: Value)
    requires IsParsedScalar(value)
    ensures r != Number(NaN)
    ensures Truthy(value) ==> r == value
    ensures !Truthy(value) && falsyFallback == UndefinedFallback ==> r == Undefined
    ensures !Truthy(value) && falsyFallback == NullFallback ==> r == Null
    ensures falsyFallback == Passthrough ==> r == if value == Number(NaN) then Number(Int(0)) else value
  {
    if !Truthy(value) && falsyFallback != Passthrough then
      if falsyFallback == UndefinedFallback then Undefined else Null
    else if value.Number? && value.n.NaN? then
      Number(Int(0))
    else
      value
  }

  /** The falsy inputs are exactly '', 0, NaN and false. */
  lemma FalsyScalars(value: Value)
    requires IsParsedScalar(value)
    ensures !Truthy(value) <==>
      value == Str([]) || value == Number(Int(0)) || value == Number(NaN) || value == Bool(false)
  {
  }

  /** NaN under 'undefined' or 'null' yields the fallback, not 0: the falsy
      test comes before the NaN test. */
  lemma NaNTakesFallback(falsyFallback: FalsyFallback)
    requires falsyFallback != Passthrough
    ensures HandleFalsyFallback(Number(NaN), falsyFallback) != Number(Int(0))
  {
  }
}

=== FILE: integer_segment_processor.dfy ===
/** Model of src/processors/IntegerSegmentProcessor.ts: the `mend` switch of
    `parse` and `format`, and the `parseInt` of the floor branch, which is
    the global `parseInt` of section 19.2.5 of ECMA-262 called without a
    radix. */
module IntegerSegmentProcessor {
  import opened JsCore
  import TrimString
  import opened SegmentProcessor

  /** The units `parseInt` skips before a number: WhiteSpace and
      LineTerminator of ECMA-262 (TAB, LF, VT, FF, CR, SP, NBSP, the other
      Zs spaces, LS, PS, ZWNBSP). */
  predicate IsWhiteSpace(u: CodeUnit)
  {
    || 0x09 <= u <= 0x0D || u == 0x20 || u == 0xA0 || u == 0x1680
    || 0x2000 <= u <= 0x200A || u == 0x2028 || u == 0x2029 || u == 0x202F
    || u == 0x205F || u == 0x3000 || u == 0xFEFF
  }

  /** s without its leading white space. */
  function SkipWhiteSpace(s: JsString): (r: JsString)
    ensures |r| <= |s| && r == s[|s| - |r|..]
    ensures r == [] || !IsWhiteSpace(r[0])
  {
    if s != [] && IsWhiteSpace(s[0]) then SkipWhiteSpace(s[1..]) else s
  }

  /** The value of a digit in radix 36 ('0'..'9', 'a'..'z', 'A'..'Z'), or
      36 for a unit that is no digit in any radix. */
  function DigitValue(u: CodeUnit): (d: nat)
    ensures d <= 36
  {
    if 0x30 <= u <= 0x39 then (u - 0x30) as nat
    else if 0x61 <= u <= 0x7A then (u - 0x61) as nat + 10
    else if 0x41 <= u <= 0x5A then (u - 0x41) as nat + 10
    else 36
  }

  /** The longest prefix of s made of digits of the radix. */
  function DigitPrefix(s: JsString, radix: nat): (r: JsString)
    ensures |r| <= |s| && r == s[..|r|]
    ensures forall i | 0 <= i < |r| :: DigitValue(r[i]) < radix
    ensures |r| < |s| ==> DigitValue(s[|r|]) >= radix
  {
    if s == [] || DigitValue(s[0]) >= radix then []
    else [s[0]] + DigitPrefix(s[1..], radix)
  }

  /** The number a string of digits denotes in the radix. */
  function DigitsValue(digits: JsString, radix: nat): nat
  {
    if digits == [] then 0
    else DigitsValue(digits[..|digits| - 1], radix) * radix + DigitValue(digits[|digits| - 1])
  }

  /** `parseInt(input)`: skip leading white space, then read a signed
      number. */
  function ParseInt(input: JsString): (r: Num)
  {
    ParseSigned(SkipWhiteSpace(input))
  }

  /** An optional sign followed by a magnitude; NaN without digits. A
      negative zero is the integer 0 here. */
  function ParseSigned(s: JsString): (r: Num)
  {
    var negative := s != [] && s[0] == MINUS;
    var unsigned := if s != [] && (s[0] == MINUS || s[0] == PLUS) then s[1..] else s;
    match ParseMagnitude(unsigned)
    case None => NaN
    case Some(m) => Int(if negative then -m else m)
  }

  /** Radix 16 after a "0x"/"0X" prefix and 10 otherwise, then the longest
      run of digits of that radix, if there is one. */
  function ParseMagnitude(s: JsString): (r: Option<int>)
    ensures r.Some? ==> r.value >= 0
  {
    if HexPrefix(s) then ReadDigits(s[2..], 16) else ReadDigits(s, 10)
  }

  /** s begins with "0x" or "0X". */
  predicate HexPrefix(s: JsString)
  {
    |s| >= 2 && s[0] == ZERO && (s[1] == 'x' as CodeUnit || s[1] == 'X' as CodeUnit)
  }

  /** The value of the longest run of digits of the radix at the start of
      s, if there is one. */
  function ReadDigits(s: JsString, radix: nat): Option<int>
  {
    var digits := DigitPrefix(s, radix);
    if digits == [] then None else Some(DigitsValue(digits, radix))
  }

  /** The message of the `mend: 'error'` branch. */
  function IntegerMessage(name: JsString): JsString
  {
    Lit("Expected parsed value for '") + name + Lit("' to be an integer")
  }

  /** `parse(input, config)`: ceil and round hand the text to `parseFloat`,
      error throws, and floor or an absent mend use `parseInt`. */
  function IntegerParse(input: JsString, config: SegmentConfig): (r: Parsed)
    requires config.options.IntegerOptions?
    ensures config.options.mend == Some(Error) <==> r.Throws?
    ensures r.Throws? ==> r.message == IntegerMessage(config.name)
    ensures config.options.mend == Some(Ceil) ==> r == Converts(CeilOfParseFloat, input)
    ensures config.options.mend == Some(Round) ==> r == Converts(RoundOfParseFloat, input)
    ensures config.options.mend in {None, Some(Floor)} ==> r == Yields(Number(ParseInt(input)))
  {
    match config.options.mend
    case Some(Ceil) => Converts(CeilOfParseFloat, input)
    case Some(Round) => Converts(RoundOfParseFloat, input)
    case Some(Error) => Throws(IntegerMessage(config.name))
    case _ => Yields(Number(ParseInt(input)))
  }

  /** The digits of `Math.floor`/`ceil`/`round` of a value in the radix.
      On an integer the three roundings are the identity. */
  function RoundedText(v: Value, radix: int): (r: Formatted)
    requires 2 <= radix <= 36
    ensures v.Str? <==> r.Unconverted?
    ensures v.Str? ==> r.numeral == v.s
  {
    match ToNumber(v)
    case Some(n) => Text(NumToString(n, radix))
    case None => Unconverted(v.s)
  }

  /** `format(input, config)`: ceil and round write base 10, error throws,
      and floor or an absent mend write `config.radix` (10 when absent),
      throwing a RangeError for a radix outside 2..36. */
  function IntegerFormat(record: Record, config: SegmentConfig): (r: Formatted)
    requires config.options.IntegerOptions?
    ensures config.options.mend == Some(Error) <==> r.FormatThrows?
    ensures r.FormatThrows? ==> r.message == IntegerMessage(config.name)
    ensures r.RadixRangeError? <==>
      config.options.mend in {None, Some(Floor)} && !(2 <= config.options.radix.GetOr(10) <= 36)
    ensures var v := Lookup(record, config.name);
      ToNumber(v).Some? && config.options.mend in {Some(Ceil), Some(Round)} ==>
        r == Text(NumToString(ToNumber(v).value, 10))
    ensures var v := Lookup(record, config.name); var radix := config.options.radix.GetOr(10);
      ToNumber(v).Some? && config.options.mend in {None, Some(Floor)} && 2 <= radix <= 36 ==>
        r == Text(NumToString(ToNumber(v).value, radix))
    ensures var v := Lookup(record, config.name);
      v.Str? && !r.FormatThrows? && !r.RadixRangeError? ==> r == Unconverted(v.s)
  {
    var v := Lookup(record, config.name);
    match config.options.mend
    case Some(Ceil) => RoundedText(v, 10)
    case Some(Round) => RoundedText(v, 10)
    case Some(Error) => FormatThrows(IntegerMessage(config.name))
    case _ =>
      var radix := config.options.radix.GetOr(10);
      if 2 <= radix <= 36 then RoundedText(v, radix) else RadixRangeError
  }

  /** The integer defaults: mend 'round', radix 10, zero padding at the start. */
  function IntegerDefaults(): (r: TypeOptions)
  {
    IntegerOptions(Some(Round), Some(10))
  }

  const INTEGER_PADDING: Padding := Padding(Lit("0"), TrimString.Start, true)

  /** Under the integer defaults `parse` rounds `parseFloat` of the text,
      `format` writes base 10, and the padding is '0' at the start. */
  lemma DefaultsRound(input: JsString, record: Record, config: SegmentConfig)
    requires config.options == IntegerDefaults() && config.padding == INTEGER_PADDING
    ensures IntegerParse(input, config) == Converts(RoundOfParseFloat, input)
    ensures Lookup(record, config.name).Number? ==>
      IntegerFormat(record, config) == Text(NumToString(Lookup(record, config.name).n, 10))
    ensures Trim(input, config) == TrimString.StripLeading(input, Lit("0"))
  {
  }

  /** The text of an integer written in the radix: an optional '-' and
      then at least one digit of the radix. */
  predicate ParseIntDigits(text: JsString, radix: int)
  {
    var digits := if text != [] && text[0] == MINUS then text[1..] else text;
    digits != [] && forall i | 0 <= i < |digits| :: DigitValue(digits[i]) < radix
  }

  /** A record without the field formats as 'NaN', and a null field as '0',
      whenever the mend writes text. */
  lemma MissingOrNullField(record: Record, config: SegmentConfig)
    requires config.options.IntegerOptions?
    requires config.options.mend != Some(Error)
    requires 2 <= config.options.radix.GetOr(10) <= 36
    ensures config.name !in record ==> IntegerFormat(record, config) == Text(Lit("NaN"))
    ensures config.name in record && record[config.name].Null? ==>
      IntegerFormat(record, config) == Text([ZERO])
  {
    var radix := config.options.radix.GetOr(10);
    if config.name in record && record[config.name].Null? {
      assert IntToString(0, radix) == RadixDigits(0, radix);
    }
  }

  /** An integer value is written as an optional '-' and the digits of
      the radix. */
  lemma RoundedTextDigits(v: Value, radix: int)
    requires 2 <= radix <= 36
    requires v.Number? && v.n.Int?
    ensures RoundedText(v, radix).Text? && ParseIntDigits(RoundedText(v, radix).text, radix)
  {
    var i := v.n.i;
    var n: nat := if i < 0 then -i else i;
    RadixDigitsAreDigits(n, radix);
    if i < 0 {
      assert IntToString(i, radix)[1..] == RadixDigits(n, radix);
    }
  }

  /** The message of the 'error' branch names the segment between quotes. */
  lemma IntegerMessageNames(name: JsString)
    ensures var m := IntegerMessage(name);
            |m| == 45 + |name| && m[27..27 + |name|] == name
            && m[26] == '\'' as CodeUnit && m[27 + |name|] == '\'' as CodeUnit
  {
    var prefix := Lit("Expected parsed value for '");
    var suffix := Lit("' to be an integer");
    assert IntegerMessage(name) == prefix + name + suffix;
  }

  /** `mend: 'error'` throws in both directions, for every input. */
  lemma ErrorAlwaysThrows(input: JsString, record: Record, config: SegmentConfig)
    requires config.options.IntegerOptions? && config.options.mend == Some(Error)
    ensures IntegerParse(input, config).Throws? && IntegerFormat(record, config).FormatThrows?
  {
  }

  /** `parseInt` ignores `config.radix`: the floor branch reads decimal (or
      "0x" hexadecimal) whatever radix the segment formats with. */
  lemma ParseIgnoresRadix(input: JsString, config: SegmentConfig, radix: Option<int>)
    requires config.options.IntegerOptions? && config.options.mend in {None, Some(Floor)}
    ensures IntegerParse(input, config) == IntegerParse(input, config.(options := config.options.(radix := radix)))
  {
  }

  lemma DigitUnitValue(d: nat)
    requires d < 36
    ensures DigitValue(DigitUnit(d)) == d
  {
  }

  /** `toString` writes only digits of its radix. */
  lemma {:induction false} RadixDigitsAreDigits(n: nat, radix: int)
    requires 2 <= radix <= 36
    ensures forall i | 0 <= i < |RadixDigits(n, radix)| :: DigitValue(RadixDigits(n, radix)[i]) < radix
    decreases n
  {
    if n < radix {
      DigitUnitValue(n);
    } else {
      RadixDigitsAreDigits(n / radix, radix);
      DigitUnitValue(n % radix);
    }
  }

  /** The decimal digits `toString(10)` writes read back as the number. */
  lemma {:induction false} DecimalDigitsValue(n: nat)
    ensures DigitsValue(RadixDigits(n, 10), 10) == n
    decreases n
  {
    if n < 10 {
      DigitUnitValue(n);
      DigitsValueSnoc([], DigitUnit(n), 10);
      assert [] + [DigitUnit(n)] == RadixDigits(n, 10);
    } else {
      DecimalDigitsValue(n / 10);
      DigitUnitValue(n % 10);
      DigitsValueSnoc(RadixDigits(n / 10, 10), DigitUnit(n % 10), 10);
    }
  }

  lemma DigitsValueSnoc(digits: JsString, u: CodeUnit, radix: nat)
    ensures DigitsValue(digits + [u], radix) == DigitsValue(digits, radix) * radix + DigitValue(u)
  {
    assert (digits + [u])[..|digits|] == digits;
  }

  /** A run of digits is its own longest digit prefix. */
  lemma {:induction false} AllDigitsPrefix(s: JsString, radix: nat)
    requires forall i | 0 <= i < |s| :: DigitValue(s[i]) < radix
    ensures DigitPrefix(s, radix) == s
  {
    if s != [] {
      AllDigitsPrefix(s[1..], radix);
    }
  }

  /** A non-empty run of decimal digits is read in radix 10: it cannot
      start with "0x". */
  lemma DecimalMagnitude(digits: JsString)
    requires digits != []
    requires forall i | 0 <= i < |digits| :: DigitValue(digits[i]) < 10
    ensures ParseMagnitude(digits) == Some(DigitsValue(digits, 10))
  {
    AllDigitsPrefix(digits, 10);
    if |digits| >= 2 {
      assert DigitValue(digits[1]) < 10;
      assert digits[1] != 'x' as CodeUnit && digits[1] != 'X' as CodeUnit;
    }
    assert !HexPrefix(digits);
  }

  /** Text that does not begin with white space is read as it is. */
  lemma NoLeadingWhiteSpace(s: JsString)
    requires s != [] && !IsWhiteSpace(s[0])
    ensures ParseInt(s) == ParseSigned(s)
  {
  }

  /** A leading '-' negates the magnitude that follows; text without a sign
      is its own magnitude. */
  lemma SignedMagnitude(s: JsString)
    ensures s != [] && s[0] == MINUS && ParseMagnitude(s[1..]).Some? ==>
      ParseSigned(s) == Int(-ParseMagnitude(s[1..]).value)
    ensures s != [] && s[0] != MINUS && s[0] != PLUS && ParseMagnitude(s).Some? ==>
      ParseSigned(s) == Int(ParseMagnitude(s).value)
  {
  }

  /** The decimal digits of n are read as n. */
  lemma DecimalText(n: nat)
    ensures var digits := RadixDigits(n, 10);
            ParseMagnitude(digits) == Some(n) && DigitValue(digits[0]) < 10
  {
    RadixDigitsAreDigits(n, 10);
    DecimalDigitsValue(n);
    DecimalMagnitude(RadixDigits(n, 10));
  }

  /** A magnitude, with '-' before it when negative, is read back with its
      sign. */
  lemma SignedText(text: JsString, digits: JsString, v: int)
    requires digits != [] && DigitValue(digits[0]) < 10
    requires ParseMagnitude(digits) == Some(if v < 0 then -v else v)
    requires text == if v < 0 then [MINUS] + digits else digits
    ensures ParseInt(text) == Int(v)
  {
    NoLeadingWhiteSpace(text);
    SignedMagnitude(text);
    if v < 0 {
      assert text[1..] == digits;
    }
  }

  /** `parseInt` reads back every integer that `toString(10)` writes. */
  lemma ParseIntToString(v: int)
    ensures ParseInt(IntToString(v, 10)) == Int(v)
  {
    var n: nat := if v < 0 then -v else v;
    DecimalText(n);
    SignedText(IntToString(v, 10), RadixDigits(n, 10), v);
  }

  /** On the floor branch in radix 10, parsing what `format` wrote gives the
      integer back. */
  lemma FloorRoundTrip(v: int, config: SegmentConfig)
    requires config.options.IntegerOptions? && config.options.mend in {None, Some(Floor)}
    requires config.options.radix in {None, Some(10)}
    ensures var f := IntegerFormat(map[config.name := Number(Int(v))], config);
      f.Text? && IntegerParse(f.text, config) == Yields(Number(Int(v)))
  {
    ParseIntToString(v);
  }

  /** `parseInt` skips white space, reads the sign and stops at the first
      non-digit. */
  lemma ParseIntStopsAtNonDigit()
    ensures ParseInt(Lit(" -42px")) == Int(-42)
  {
    var signed: JsString := [MINUS, 0x34, 0x32, 0x70, 0x78];
    assert Lit(" -42px") == [SPACE] + signed;
    SkipsWhiteSpace([SPACE], signed);
    NoLeadingWhiteSpace(signed);
    SignedExample(signed);
  }

  /** Leading white space does not change what `parseInt` reads. */
  lemma {:induction false} SkipsWhiteSpace(space: JsString, s: JsString)
    requires forall i | 0 <= i < |space| :: IsWhiteSpace(space[i])
    ensures ParseInt(space + s) == ParseInt(s)
    decreases |space|
  {
    if space != [] {
      assert (space + s)[0] == space[0];
      assert (space + s)[1..] == space[1..] + s;
      SkipsWhiteSpace(space[1..], s);
    } else {
      assert space + s == s;
    }
  }

  lemma SignedExample(signed: JsString)
    requires signed == [MINUS, 0x34, 0x32, 0x70, 0x78]
    ensures ParseSigned(signed) == Int(-42)
  {
    var unsigned := signed[1..];
    var digits: JsString := [0x34, 0x32];
    assert unsigned == digits + [0x70, 0x78];
    assert DigitPrefix(unsigned[1..][1..], 10) == [];
    assert DigitPrefix(unsigned, 10) == digits;
    DigitsValueSnoc([0x34], 0x32, 10);
    DigitsValueSnoc([], 0x34, 10);
    assert ParseMagnitude(unsigned) == Some(42);
  }

  /** `parseInt` reads a "0x" prefix as hexadecimal. */
  lemma ParseIntHex()
    ensures ParseInt(Lit("0x1F")) == Int(31)
  {
    var b := Lit("0x1F");
    assert b == [ZERO, 0x78, 0x31, 0x46];
    HexParse(b);
  }

  lemma HexParse(b: JsString)
    requires b == [ZERO, 0x78, 0x31, 0x46]
    ensures ParseInt(b) == Int(31)
  {
    NoLeadingWhiteSpace(b);
    HexExample(b);
    SignedMagnitude(b);
  }

  lemma HexExample(b: JsString)
    requires b == [ZERO, 0x78, 0x31, 0x46]
    ensures ParseMagnitude(b) == Some(31)
  {
    var digits: JsString := [0x31, 0x46];
    assert HexPrefix(b) && b[2..] == digits;
    assert DigitPrefix(digits, 16) == digits;
    DigitsValueSnoc([0x31], 0x46, 16);
    DigitsValueSnoc([], 0x31, 16);
  }

  /** Text whose first unit after white space and sign is no decimal digit
      holds no number: `parseInt` gives NaN. */
  lemma ParseIntNoDigits(s: JsString)
    requires s != [] && !IsWhiteSpace(s[0]) && s[0] != MINUS && s[0] != PLUS
    requires DigitValue(s[0]) >= 10
    ensures ParseInt(s) == NaN
  {
    NoLeadingWhiteSpace(s);
    assert !HexPrefix(s) && DigitPrefix(s, 10) == [];
  }

  /** `parseInt('abc')` is NaN. */
  lemma ParseIntLetters()
    ensures ParseInt(Lit("abc")) == NaN
  {
    var s := Lit("abc");
    assert s == [0x61, 0x62, 0x63];
    ParseIntNoDigits(s);
  }
}

=== FILE: js_core.dfy ===
/** The JavaScript values the codec manipulates, and the few built-in string
    operations (slice, substring, charAt, indexOf, padStart, padEnd) whose
    observable behaviour the codec relies on.

    Strings are sequences of UTF-16 code units, as in JavaScript. Numbers are
    unbounded integers plus an explicit NaN: the codec's integer paths never
    leave the integers, and its floating-point conversions are kept
    uninterpreted elsewhere in the model. */
module JsCore {

  /** One UTF-16 code unit. */
  newtype CodeUnit = u: int | 0 <= u < 0x1_0000

  /** A JavaScript string: a sequence of UTF-16 code units. */
  type JsString = seq<CodeUnit>

  /** The code units of a string literal whose characters all lie in the
      Basic Multilingual Plane (every literal of this model is ASCII). */
  function Lit(s: string): (r: JsString)
    requires forall i | 0 <= i < |s| :: s[i] as int < 0x1_0000
    ensures |r| == |s|
    ensures forall i | 0 <= i < |s| :: r[i] as int == s[i] as int
  {
    seq(|s|, i requires 0 <= i < |s| => s[i] as int as CodeUnit)
  }

  const TAB: CodeUnit := 0x09
  const LF: CodeUnit := 0x0A
  const CR: CodeUnit := 0x0D
  const SPACE: CodeUnit := 0x20
  const PLUS: CodeUnit := 0x2B
  const MINUS: CodeUnit := 0x2D
  const DOT: CodeUnit := 0x2E
  const ZERO: CodeUnit := 0x30
  const BACKSLASH: CodeUnit := 0x5C
  const TILDE: CodeUnit := 0x7E

  datatype Option<T> = None | Some(value: T)
  {
    /** `x ?? d` for a value that is either present or undefined. */
    function GetOr(default: T): T
    {
      match this
      case Some(v) => v
      case None => default
    }
  }

  /** The outcome of an operation that may throw an `Error` with a message. */
  datatype Result<T> = Ok(value: T) | Err(message: JsString)

  /** A JavaScript number, restricted to the integers and NaN. */
  datatype Num = Int(i: int) | NaN

  /** A JavaScript value as it can occur in a parsed or formatted record. */
  datatype Value =
    | Undefined
    | Null
    | Bool(b: bool)
    | Number(n: Num)
    | Str(s: JsString)
    | Object(fields: map<JsString, Value>)

  /** A structured record: `{ [key: string]: any }`. */
  type Record = map<JsString, Value>

  /** `record[key]`: undefined when the key is absent. */
  function Lookup(record: Record, key: JsString): Value
  {
    if key in record then record[key] else Undefined
  }

  /** JavaScript truthiness (ToBoolean). */
  predicate Truthy(v: Value)
  {
    match v
    case Undefined => false
    case Null => false
    case Bool(b) => b
    case Number(n) => n.Int? && n.i != 0
    case Str(s) => s != []
    case Object(_) => true
  }

  /** The digit character for a digit value below 36: '0'..'9', then 'a'..'z'. */
  function DigitUnit(d: nat): (u: CodeUnit)
    requires d < 36
  {
    if d < 10 then (0x30 + d) as CodeUnit else (0x61 + d - 10) as CodeUnit
  }

  /** The digits of a natural number in the given radix, most significant
      first, without leading zeros (zero itself is "0"). */
  function RadixDigits(n: nat, radix: int): (r: JsString)
    requires 2 <= radix <= 36
    ensures r != []
    decreases n
  {
    if n < radix then [DigitUnit(n)]
    else RadixDigits(n / radix, radix) + [DigitUnit(n % radix)]
  }

  /** `Number.prototype.toString(radix)` on an integer. */
  function IntToString(i: int, radix: int): JsString
    requires 2 <= radix <= 36
  {
    if i < 0 then [MINUS] + RadixDigits(-i, radix) else RadixDigits(i, radix)
  }

  /** `Number.prototype.toString(radix)` on an integer or NaN. */
  function NumToString(n: Num, radix: int): JsString
    requires 2 <= radix <= 36
  {
    match n
    case Int(i) => IntToString(i, radix)
    case NaN => Lit("NaN")
  }

  /** `String(v)`, which is also what a template literal `${v}` produces. */
  function ToString(v: Value): JsString
  {
    match v
    case Undefined => Lit("undefined")
    case Null => Lit("null")
    case Bool(b) => if b then Lit("true") else Lit("false")
    case Number(n) => NumToString(n, 10)
    case Str(s) => s
    case Object(_) => Lit("[object Object]")
  }

  /** ToNumber(v), except that the conversion of a string is not modelled
      (it parses a decimal literal into a double): None for strings. */
  function ToNumber(v: Value): Option<Num>
  {
    match v
    case Undefined => Some(NaN)
    case Null => Some(Int(0))
    case Bool(b) => Some(Int(if b then 1 else 0))
    case Number(n) => Some(n)
    case Str(_) => None
    case Object(_) => Some(NaN)
  }

  /** Number of occurrences of u in s. */
  function Count(s: JsString, u: CodeUnit): nat
  {
    if s == [] then 0 else (if s[0] == u then 1 else 0) + Count(s[1..], u)
  }

  /** Counting distributes over concatenation. */
  lemma {:induction false} CountAppend(a: JsString, b: JsString, u: CodeUnit)
    ensures Count(a + b, u) == Count(a, u) + Count(b, u)
  {
    if a != [] {
      assert (a + b)[0] == a[0];
      assert (a + b)[1..] == a[1..] + b;
      CountAppend(a[1..], b, u);
    } else {
      assert a + b == b;
    }
  }

  /** A unit occurs nowhere exactly when its count is zero. */
  lemma {:induction false} CountAbsent(s: JsString, u: CodeUnit)
    ensures Count(s, u) == 0 <==> u !in s
  {
    if s != [] {
      CountAbsent(s[1..], u);
      assert s == [s[0]] + s[1..];
    }
  }

  function Max(a: int, b: int): int { if a < b then b else a }

  function Min(a: int, b: int): int { if a < b then a else b }

  /** How `String.prototype.slice` resolves an index: negative counts from
      the end, and the result is clamped to 0..len. */
  function RelativeIndex(k: int, len: nat): (r: nat)
    ensures r <= len
  {
    if k < 0 then (if len + k < 0 then 0 else len + k)
    else if k > len then len
    else k
  }

  /** `s.slice(start, end)`. */
  function Slice(s: JsString, start: int, end: int): (r: JsString)
  {
    var from, to := RelativeIndex(start, |s|), RelativeIndex(end, |s|);
    if from < to then s[from..to] else []
  }

  /** How `String.prototype.substring` resolves an index: clamped to 0..len. */
  function Clamp(k: int, len: nat): (r: nat)
    ensures r <= len
  {
    if k < 0 then 0 else if k > len then len else k
  }

  /** `s.substring(a, b)`: the clamped bounds, swapped when out of order. */
  function Substring(s: JsString, a: int, b: int): (r: JsString)
  {
    var x, y := Clamp(a, |s|), Clamp(b, |s|);
    if x <= y then s[x..y] else s[y..x]
  }

  /** `s.charAt(k)`: the one-unit string at k, or "" out of range. */
  function CharAt(s: JsString, k: int): (r: JsString)
    ensures |r| <= 1
  {
    if 0 <= k < |s| then [s[k]] else []
  }

  /** `s.indexOf(u)` for a one-unit search string: the first index, or -1. */
  function IndexOf(s: JsString, u: CodeUnit): (r: int)
    ensures -1 <= r < |s|
    ensures r == -1 <==> u !in s
    ensures 0 <= r ==> s[r] == u && u !in s[..r]
  {
    if s == [] then -1
    else if s[0] == u then 0
    else
      var k := IndexOf(s[1..], u);
      if k == -1 then -1
      else
        assert s[..k + 1] == [s[0]] + s[1..][..k];
        k + 1
  }

  /** The index of a unit that occurs nowhere before it is what `indexOf`
      finds. */
  lemma {:induction false} IndexOfFirst(s: JsString, u: CodeUnit, i: nat)
    requires i < |s| && s[i] == u && u !in s[..i]
    ensures IndexOf(s, u) == i
  {
    if i > 0 {
      assert s[..i][0] == s[0];
      assert s[1..][..i - 1] == s[..i][1..];
      IndexOfFirst(s[1..], u, i - 1);
    }
  }

  /** The filler of `padStart`/`padEnd`: `filler` repeated and cut to n units. */
  function Fill(filler: JsString, n: nat): (r: JsString)
    requires filler != []
    ensures |r| == n
    ensures forall i | 0 <= i < n :: r[i] in filler
  {
    seq(n, i requires 0 <= i < n => filler[i % |filler|])
  }

  /** `s.padStart(maxLength, filler)`. */
  function PadStart(s: JsString, maxLength: int, filler: JsString): JsString
  {
    if maxLength <= |s| || filler == [] then s
    else Fill(filler, maxLength - |s|) + s
  }

  /** `s.padEnd(maxLength, filler)`. */
  function PadEnd(s: JsString, maxLength: int, filler: JsString): JsString
  {
    if maxLength <= |s| || filler == [] then s
    else s + Fill(filler, maxLength - |s|)
  }

  /** n copies of the unit u. */
  function Repeat(u: CodeUnit, n: nat): (r: JsString)
    ensures |r| == n && forall i | 0 <= i < n :: r[i] == u
  {
    seq(n, _ => u)
  }
}

=== FILE: segment_processor.dfy ===
/** Model of src/processors/SegmentProcessor.ts, the base of every segment
    processor: the segment configuration, the default padding, and the
    trim and pad steps that surround parsing and formatting.

    The class hierarchy of processors becomes one closed datatype,
    `TypeOptions`, whose constructor is the segment's type tag and carries
    the options only that type reads. */
module SegmentProcessor {
  import opened JsCore
  import opened TrimString

  /** `padding` of a segment configuration. */
  datatype Padding = Padding(character: JsString, direction: Side, trim: bool)

  /** The integer processor's `mend` option. */
  datatype Mend = Floor | Ceil | Round | Error

  /** The type tag of a segment, with the options of that type. */
  datatype TypeOptions =
    | StringOptions
    | SkipOptions
    | IntegerOptions(mend: Option<Mend>, radix: Option<int>)
    | FloatOptions(decimalCount: Option<int>)
    | BooleanOptions(trueValue: JsString, falseValue: JsString)

  /** `Required<ISegmentConfig>` of one processor type. */
  datatype SegmentConfig = SegmentConfig(
    options: TypeOptions,
    name: JsString,
    start: int,
    width: int,
    padding: Padding)

  /** The conversions of a string to a floating-point number, which the
      model leaves uninterpreted. */
  datatype Conversion =
    | NumberOf           // `Number(text)`
    | CeilOfParseFloat   // `Math.ceil(parseFloat(text))`
    | RoundOfParseFloat  // `Math.round(parseFloat(text))`

  /** The outcome of a processor's `parse`: a value; the number obtained by
      a floating-point conversion of a string; or a thrown `Error`. */
  datatype Parsed =
    | Yields(value: Value)
    | Converts(conversion: Conversion, text: JsString)
    | Throws(message: JsString)

  /** The outcome of a processor's `format`: a string; `undefined`; a thrown
      `Error`, `RangeError` or `TypeError` (a property read on undefined or
      null); or, for a string value that an integer format
      first converts to a number, the digits of `Math.floor`/`ceil`/`round`
      of that conversion, which the model does not compute. */
  datatype Formatted =
    | Text(text: JsString)
    | NoText
    | FormatThrows(message: JsString)
    | RadixRangeError
    | TypeErrorThrown
    | Unconverted(numeral: JsString)

  /** The type tag each processor registers. */
  function TypeTag(options: TypeOptions): JsString
  {
    match options
    case StringOptions => Lit("string")
    case SkipOptions => Lit("skip")
    case IntegerOptions(_, _) => Lit("integer")
    case FloatOptions(_) => Lit("float")
    case BooleanOptions(_, _) => Lit("boolean")
  }

  /** No two processor types share a tag. */
  lemma TagsDistinct(a: TypeOptions, b: TypeOptions)
    requires TypeTag(a) == TypeTag(b)
    ensures a.StringOptions? == b.StringOptions? && a.SkipOptions? == b.SkipOptions?
    ensures a.IntegerOptions? == b.IntegerOptions? && a.FloatOptions? == b.FloatOptions?
    ensures a.BooleanOptions? == b.BooleanOptions?
  {
    var t := TypeTag(a);
    if a.StringOptions? || b.StringOptions? { assert t[0] == 's' as CodeUnit && t[1] == 't' as CodeUnit; }
    if a.SkipOptions? || b.SkipOptions? { assert t[0] == 's' as CodeUnit && t[1] == 'k' as CodeUnit; }
    if a.IntegerOptions? || b.IntegerOptions? { assert t[0] == 'i' as CodeUnit; }
    if a.FloatOptions? || b.FloatOptions? { assert t[0] == 'f' as CodeUnit; }
    if a.BooleanOptions? || b.BooleanOptions? { assert t[0] == 'b' as CodeUnit; }
  }

  /** The base `defaultSegmentConfig`: pad with spaces at the start and trim. */
  const DEFAULT_PADDING: Padding := Padding(Lit(" "), Start, true)

  /** Under the default padding `trim` strips leading spaces and `pad`
      adds them at the start. */
  lemma DefaultPadding(input: JsString, config: SegmentConfig)
    requires config.padding == DEFAULT_PADDING
    ensures Trim(input, config) == StripLeading(input, Lit(" "))
    ensures Pad(input, config) == PadStart(input, config.width, Lit(" "))
  {
  }

  /** `trim(input, config)`: with trimming on, strip the run of padding
      characters from the padded side (lodash `trimStart`/`trimEnd`, which
      strip every leading or trailing unit that occurs in the pad string,
      one code unit at a time; strings lodash splits into grapheme symbols
      are not covered). */
  function Trim(input: JsString, config: SegmentConfig): (r: JsString)
    ensures !config.padding.trim ==> r == input
    ensures config.padding.trim && config.padding.direction == Start ==>
      && |r| <= |input| && input == input[..|input| - |r|] + r
      && (forall i | 0 <= i < |input| - |r| :: input[i] in config.padding.character)
      && (r == [] || r[0] !in config.padding.character)
    ensures config.padding.trim && config.padding.direction == End ==>
      && |r| <= |input| && input == r + input[|r|..]
      && (forall i | |r| <= i < |input| :: input[i] in config.padding.character)
      && (r == [] || r[|r| - 1] !in config.padding.character)
  {
    if config.padding.trim then
      if config.padding.direction == Start then StripLeading(input, config.padding.character)
      else StripTrailing(input, config.padding.character)
    else input
  }

  /** `pad(input, config)`: `padStart` or `padEnd` to `config.width` with the
      padding character. Nothing is ever cut off. */
  function Pad(input: JsString, config: SegmentConfig): (r: JsString)
    ensures config.padding.character != [] ==> |r| == Max(config.width, |input|)
    ensures config.padding.character == [] ==> r == input
    ensures config.padding.direction == Start ==>
      && |input| <= |r| && r[|r| - |input|..] == input
      && forall i | 0 <= i < |r| - |input| :: r[i] in config.padding.character
    ensures config.padding.direction == End ==>
      && |input| <= |r| && r[..|input|] == input
      && forall i | |input| <= i < |r| :: r[i] in config.padding.character
  {
    if config.padding.direction == Start then PadStart(input, config.width, config.padding.character)
    else PadEnd(input, config.width, config.padding.character)
  }

  /** `validateConfig(config)`: every configuration is accepted. */
  function ValidateConfig(config: SegmentConfig): (r: bool)
    ensures r
  {
    true
  }

  /** Trimming undoes padding when the value itself does not begin (for
      'start') or end (for 'end') with a padding character. */
  lemma TrimPadRoundTrip(s: JsString, config: SegmentConfig)
    requires config.padding.trim
    requires config.padding.direction == Start ==> s == [] || s[0] !in config.padding.character
    requires config.padding.direction == End ==> s == [] || s[|s| - 1] !in config.padding.character
    ensures Trim(Pad(s, config), config) == s
  {
    var p := Pad(s, config);
    var chars := config.padding.character;
    if config.padding.direction == Start {
      var run := p[..|p| - |s|];
      assert p == run + s;
      StripLeadingUnique(run, s, chars);
    } else {
      var run := p[|s|..];
      assert p == s + run;
      StripTrailingUnique(s, run, chars);
    }
  }
}

=== FILE: skip_segment_processor.dfy ===
/** Model of src/processors/SkipSegmentProcessor.ts: a skipped segment
    contributes nothing to a record and only padding to a line. */
module SkipSegmentProcessor {
  import opened JsCore
  import opened SegmentProcessor

  /** `parse()`: the empty object, whatever the segment holds. */
  function SkipParse(input: JsString): (r: Parsed)
    ensures r.Yields? && r.value.Object? && r.value.fields == map[]
  {
    Yields(Object(map[]))
  }

  /** `format()`: the empty string, whatever the record and configuration. */
  function SkipFormat(record: Record, config: SegmentConfig): (r: Formatted)
    ensures r.Text? && r.text == []
  {
    Text([])
  }

  /** Padded to its width, a skipped segment is exactly `width` copies of a
      one-unit padding character. */
  lemma SkipPadded(record: Record, config: SegmentConfig)
    requires |config.padding.character| == 1
    ensures Pad(SkipFormat(record, config).text, config) == Repeat(config.padding.character[0], Max(config.width, 0))
  {
    var r := Pad(SkipFormat(record, config).text, config);
    assert forall i | 0 <= i < |r| :: r[i] in config.padding.character;
  }
}

=== FILE: splice.dfy ===
/** Model of src/splice.ts: insert one string into another at a position
    resolved the way `String.prototype.slice` resolves it. */
module Splice {
  import opened JsCore

  /** `target.slice(0, position) + insert + target.slice(position)`.
      The insertion point is `RelativeIndex(position, |target|)`. */
  function Splice(target: JsString, insert: JsString, position: int): (r: JsString)
    ensures |r| == |target| + |insert|
    ensures var p := RelativeIndex(position, |target|);
            r == target[..p] + insert + target[p..]
  {
    Slice(target, 0, position) + insert + Slice(target, position, |target|)
  }

  /** A position within 0..|target| inserts exactly there. */
  lemma SpliceInRange(target: JsString, insert: JsString, position: int)
    requires 0 <= position <= |target|
    ensures Splice(target, insert, position) == target[..position] + insert + target[position..]
  {
  }

  /** Negative positions count from the end of the target; positions before
      its start prepend and positions past its end append. */
  lemma SpliceOutOfRange(target: JsString, insert: JsString, position: int)
    ensures -|target| <= position < 0 ==>
      Splice(target, insert, position)
        == target[..|target| + position] + insert + target[|target| + position..]
    ensures position < -|target| ==> Splice(target, insert, position) == insert + target
    ensures position > |target| ==> Splice(target, insert, position) == target + insert
  {
  }

  /** Deleting the inserted piece at its insertion point gives the target back. */
  lemma SpliceThenDelete(target: JsString, insert: JsString, position: int)
    ensures var p := RelativeIndex(position, |target|);
            var r := Splice(target, insert, position);
            r[p..p + |insert|] == insert && r[..p] + r[p + |insert|..] == target
  {
    var p := RelativeIndex(position, |target|);
    var r := Splice(target, insert, position);
    DeleteInserted(target[..p], insert, target[p..], r);
  }

  /** Removing the middle piece of a three-piece concatenation. */
  lemma DeleteInserted(front: JsString, middle: JsString, back: JsString, r: JsString)
    requires r == front + middle + back
    ensures r[|front|..|front| + |middle|] == middle
    ensures r[..|front|] + r[|front| + |middle|..] == front + back
  {
    assert r[..|front|] == front;
    assert r[|front| + |middle|..] == back;
  }

  /** The call in test/splice.spec.ts, `splice('123567', '4', 2)`, yields
      '1243567': position 2 is after "12", so the expected '1234567' is not
      what the function returns. */
  lemma SpliceTestAsWritten()
    ensures Splice(Lit("123567"), Lit("4"), 2) == Lit("1243567")
    ensures Splice(Lit("123567"), Lit("4"), 2) != Lit("1234567")
  {
    assert Lit("123567") == [0x31, 0x32] + [0x33, 0x35, 0x36, 0x37];
    assert Lit("4") == [0x34];
    assert Lit("1243567") == [0x31, 0x32] + [0x34] + [0x33, 0x35, 0x36, 0x37];
    assert Lit("1234567")[2] == 0x33;
  }

  /** The insertion the callers expect: `insert` goes after the unit at
      `position`, i.e. `target.slice(0, position + 1) + insert +
      target.slice(position + 1)`. */
  function SpliceAfter(target: JsString, insert: JsString, position: int): (r: JsString)
    ensures |r| == |target| + |insert|
    ensures var p := RelativeIndex(position + 1, |target|);
            r == target[..p] + insert + target[p..]
  {
    Splice(target, insert, position + 1)
  }

  /** Within the target, the unit at `position` directly precedes the
      inserted piece. */
  lemma SpliceAfterIndex(target: JsString, insert: JsString, position: int)
    requires 0 <= position < |target|
    ensures SpliceAfter(target, insert, position)[position] == target[position]
    ensures SpliceAfter(target, insert, position)[position + 1..position + 1 + |insert|] == insert
    ensures SpliceAfter(target, insert, position)[..position + 1] == target[..position + 1]
  {
    var r := SpliceAfter(target, insert, position);
    DeleteInserted(target[..position + 1], insert, target[position + 1..], r);
  }

  /** With insertion after the index, the test's own call
      `splice('123567', '4', 2)` gives the expected '1234567'. */
  lemma SpliceAfterTest()
    ensures SpliceAfter(Lit("123567"), Lit("4"), 2) == Lit("1234567")
  {
    assert Lit("123567") == [0x31, 0x32, 0x33] + [0x35, 0x36, 0x37];
    assert Lit("4") == [0x34];
    assert Lit("1234567") == [0x31, 0x32, 0x33] + [0x34] + [0x35, 0x36, 0x37];
  }

  /** Inserting '4' into '123567' to obtain '1234567' takes position 3. */
  lemma SpliceTestIntended()
    ensures Splice(Lit("123567"), Lit("4"), 3) == Lit("1234567")
  {
    assert Lit("123567") == [0x31, 0x32, 0x33] + [0x35, 0x36, 0x37];
    assert Lit("4") == [0x34];
    assert Lit("1234567") == [0x31, 0x32, 0x33] + [0x34] + [0x35, 0x36, 0x37];
  }
}

=== FILE: string_segment_processor.dfy ===
/** Model of src/processors/StringSegmentProcessor.ts: a string segment is
    its own value. */
module StringSegmentProcessor {
  import opened JsCore
  import opened SegmentProcessor

  /** `parse(input)`: the trimmed input is the value. The configuration is
      not an argument: the source's `parse` does not take it. */
  function StringParse(input: JsString): (r: Parsed)
    ensures r.Yields? && r.value.Str? && r.value.s == input
  {
    Yields(Str(input))
  }

  /** `format(input, config)`: the record's value under `config.name`,
      rendered with `String(...)`. */
  function StringFormat(record: Record, config: SegmentConfig): (r: Formatted)
    ensures r.Text?
    ensures config.name in record && record[config.name].Str? ==> r.text == record[config.name].s
    ensures config.name !in record ==> r.text == Lit("undefined")
    ensures config.name in record && record[config.name].Number? ==>
      r.text == NumToString(record[config.name].n, 10)
    ensures config.name in record && record[config.name].Null? ==> r.text == Lit("null")
    ensures config.name in record && record[config.name].Bool? ==>
      r.text == if record[config.name].b then Lit("true") else Lit("false")
  {
    Text(ToString(Lookup(record, config.name)))
  }

  /** Formatting what was parsed gives the segment text back, and parsing
      what was formatted from a string gives the string back. */
  lemma StringRoundTrip(s: JsString, config: SegmentConfig)
    ensures StringFormat(map[config.name := StringParse(s).value], config) == Text(s)
    ensures StringParse(StringFormat(map[config.name := Str(s)], config).text) == Yields(Str(s))
  {
  }
}

=== FILE: trim_string.dfy ===
/** Model of src/trimString.ts, together with the run-stripping functions
    that specify it. On strings that lodash does not split into grapheme
    symbols, the same functions specify lodash's `trimStart(s, chars)` and
    `trimEnd(s, chars)`, which strip the leading or trailing units that
    occur in `chars`. */
module TrimString {
  import opened JsCore

  /** Which end of a string to work on: 'start' or 'end'. */
  datatype Side = Start | End

  /** s without its maximal leading run of units that occur in chars. */
  function StripLeading(s: JsString, chars: JsString): (r: JsString)
    ensures |r| <= |s| && r == s[|s| - |r|..]
    ensures forall i | 0 <= i < |s| - |r| :: s[i] in chars
    ensures r == [] || r[0] !in chars
  {
    if s != [] && s[0] in chars then StripLeading(s[1..], chars) else s
  }

  /** s without its maximal trailing run of units that occur in chars. */
  function StripTrailing(s: JsString, chars: JsString): (r: JsString)
    ensures |r| <= |s| && r == s[..|r|]
    ensures forall i | |r| <= i < |s| :: s[i] in chars
    ensures r == [] || r[|r| - 1] !in chars
  {
    if s != [] && s[|s| - 1] in chars then StripTrailing(s[..|s| - 1], chars) else s
  }

  /** The leading run is unique: whenever s splits into a run of units from
      chars followed by a rest that does not begin with one, stripping
      yields that rest. */
  lemma {:induction false} StripLeadingUnique(run: JsString, rest: JsString, chars: JsString)
    requires forall i | 0 <= i < |run| :: run[i] in chars
    requires rest == [] || rest[0] !in chars
    ensures StripLeading(run + rest, chars) == rest
    decreases |run|
  {
    if run != [] {
      assert (run + rest)[1..] == run[1..] + rest;
      StripLeadingUnique(run[1..], rest, chars);
    }
  }

  /** The trailing run is unique, as for the leading run. */
  lemma {:induction false} StripTrailingUnique(rest: JsString, run: JsString, chars: JsString)
    requires forall i | 0 <= i < |run| :: run[i] in chars
    requires rest == [] || rest[|rest| - 1] !in chars
    ensures StripTrailing(rest + run, chars) == rest
    decreases |run|
  {
    if run != [] {
      assert (rest + run)[..|rest + run| - 1] == rest + run[..|run| - 1];
      StripTrailingUnique(rest, run[..|run| - 1], chars);
    }
  }

  /** Stripping twice strips nothing more. */
  lemma StripIdempotent(s: JsString, chars: JsString)
    ensures StripLeading(StripLeading(s, chars), chars) == StripLeading(s, chars)
    ensures StripTrailing(StripTrailing(s, chars), chars) == StripTrailing(s, chars)
  {
  }

  /** `trimString(stringToTrim, charToRemove, side)`: the source removes one
      unit at a time while the unit at that end equals `charToRemove`.
      A `charToRemove` of one unit strips the maximal run of it; any other
      `charToRemove` never equals a `charAt` and the input comes back as it
      was. With both arguments empty the source loops forever (`charAt` of
      "" is ""), which is the one input the precondition excludes. */
  method TrimString(stringToTrim: JsString, charToRemove: JsString, side: Side) returns (r: JsString)
    requires stringToTrim != [] || charToRemove != []
    ensures |charToRemove| == 1 && side == Start ==> r == StripLeading(stringToTrim, charToRemove)
    ensures |charToRemove| == 1 && side == End ==> r == StripTrailing(stringToTrim, charToRemove)
    ensures |charToRemove| != 1 ==> r == stringToTrim
  {
    if side == Start {
      r := TrimStartLoop(stringToTrim, charToRemove);
      if |charToRemove| == 1 {
        StripLeadingUnique(stringToTrim[..|stringToTrim| - |r|], r, charToRemove);
      }
    } else {
      r := TrimEndLoop(stringToTrim, charToRemove);
      if |charToRemove| == 1 {
        StripTrailingUnique(r, stringToTrim[|r|..], charToRemove);
      }
    }
  }

  /** The 'start' loop of `trimString`: `while (s.charAt(0) == c) s = s.substring(1)`.
      It removes a leading run of `charToRemove` and stops at a unit that is
      not `charToRemove`. */
  method TrimStartLoop(stringToTrim: JsString, charToRemove: JsString) returns (r: JsString)
    requires stringToTrim != [] || charToRemove != []
    ensures |r| <= |stringToTrim| && stringToTrim == stringToTrim[..|stringToTrim| - |r|] + r
    ensures forall i | 0 <= i < |stringToTrim| - |r| :: stringToTrim[i] in charToRemove
    ensures |charToRemove| == 1 ==> r == [] || r[0] !in charToRemove
    ensures |charToRemove| != 1 ==> r == stringToTrim
  {
    r := stringToTrim;
    while CharAt(r, 0) == charToRemove
      invariant r != [] || charToRemove != []
      invariant |r| <= |stringToTrim| && r == stringToTrim[|stringToTrim| - |r|..]
      invariant forall i | 0 <= i < |stringToTrim| - |r| :: stringToTrim[i] in charToRemove
      invariant |charToRemove| != 1 ==> r == stringToTrim
      decreases |r|
    {
      assert |charToRemove| == 1 && r != [] && r[0] in charToRemove by {
        assert CharAt(r, 0) != [];
      }
      assert Substring(r, 1, |r|) == r[1..];
      r := Substring(r, 1, |r|);
    }
    if |charToRemove| == 1 && r != [] {
      assert CharAt(r, 0) == [r[0]] && charToRemove == [charToRemove[0]];
    }
  }

  /** The 'end' loop of `trimString`:
      `while (s.charAt(s.length - 1) == c) s = s.substring(0, s.length - 1)`.
      It removes a trailing run of `charToRemove` and stops at a unit that
      is not `charToRemove`. */
  method TrimEndLoop(stringToTrim: JsString, charToRemove: JsString) returns (r: JsString)
    requires stringToTrim != [] || charToRemove != []
    ensures |r| <= |stringToTrim| && stringToTrim == r + stringToTrim[|r|..]
    ensures forall i | |r| <= i < |stringToTrim| :: stringToTrim[i] in charToRemove
    ensures |charToRemove| == 1 ==> r == [] || r[|r| - 1] !in charToRemove
    ensures |charToRemove| != 1 ==> r == stringToTrim
  {
    r := stringToTrim;
    while CharAt(r, |r| - 1) == charToRemove
      invariant r != [] || charToRemove != []
      invariant |r| <= |stringToTrim| && r == stringToTrim[..|r|]
      invariant forall i | |r| <= i < |stringToTrim| :: stringToTrim[i] in charToRemove
      invariant |charToRemove| != 1 ==> r == stringToTrim
      decreases |r|
    {
      assert |charToRemove| == 1 && r != [] && r[|r| - 1] in charToRemove by {
        assert CharAt(r, |r| - 1) != [];
      }
      assert Substring(r, 0, |r| - 1) == r[..|r| - 1];
      r := Substring(r, 0, |r| - 1);
    }
    if |charToRemove| == 1 && r != [] {
      assert CharAt(r, |r| - 1) == [r[|r| - 1]] && charToRemove == [charToRemove[0]];
    }
  }
}
